=== FILE: README.md ===
# Security Market Line analysis, modelled in Dafny

Two Streamlit scripts are modelled here: `sml_app_multi_tickers.py` and
`sml_app_final.py`. Each one downloads the daily close prices of some tickers
and of the S&P 500 (`^GSPC`). It then:

- turns the closes into daily returns (`pct_change().dropna()`);
- compounds the daily returns into annual returns (`resample('Y')`, Π(1 + r) − 1);
- shows risk metrics per column: holding-period returns, arithmetic mean,
  geometric mean, sample variance, standard deviation and coefficient of
  variation;
- averages the ten-year yield (`^TNX`) into a risk-free rate;
- estimates each ticker's beta by ordinary least squares against the market;
- prices the ticker by CAPM;
- draws the Security Market Line: a table of (ticker, beta, expected return),
  a closing "Risk-Free" row at beta 0, and the CAPM line from the table's
  lowest to its highest beta.

The multi-ticker script also parses a comma-separated text of custom tickers.
It skips tickers that have no price column and marks each ticker's average
actual return. The final script stops at the first ticker that has no column.

The project has one module per stage:

| module | file | what it holds |
|---|---|---|
| `Options` | `options.dfy` | the `Option` type |
| `Series` | `series.dfy` | sums, products, powers, means, dot products, deviations, compounding |
| `Returns` | `returns.dfy` | the price frame, forward fill, `pct_change`, `dropna`, annual grouping |
| `Stats` | `stats.dfy` | the risk metrics |
| `Regression` | `regression.dfy` | the one-feature least-squares fit |
| `Capm` | `capm.dfy` | expected return and risk-free rate |
| `Sml` | `sml.dfy` | the SML table and line |
| `Tickers` | `tickers.dfy` | the custom-ticker parser |
| `Pipeline` | `pipeline.dfy` | the two runs, `MultiRun` and `FinalRun` |

Modelling choices:

- **Numbers.** Real numbers stand in for floating point. Prices are positive
  wherever they are present.
- **Price frame.** It is a list of instrument labels, one calendar year per
  row, and one column of optional closes per label. `None` is a missing price.
  The rows are assumed to come in date order, as downloaded prices do; the
  annual grouping relies on it, since unsorted years such as 2020, 2021, 2020
  would give three annual rows.
- **Forward fill.** `pct_change` first pads missing prices forward, as pandas
  does by default in pandas 2.x (`fill_method='pad'`, deprecated since pandas
  2.1; later versions no longer pad). A padded row therefore has return 0. A row before a
  column's first price has no return.
- **Annual grouping.** `resample('Y')` groups maximal runs of rows that carry
  the same year.
- **Emptiness.** `annual_returns.empty` holds when there are no rows or no
  columns.
- **Errors.** A ticker without a column raises a `KeyError`. This happens
  after the risk metrics were written, so `Run.Aborted` carries those metrics
  and the ticker that was missing.
- **Flat market.** When the market column is constant, the least-squares
  problem has many solutions. The code does not raise here: `LinearRegression`
  returns the minimum-norm solution, which has slope 0, and the run goes on.
- **Worked example.** For market returns 0.08, 0.15, −0.02 and ticker returns
  0.10, 0.20, −0.05, the exact least-squares beta is 215/146, about 1.47
  (`Pipeline.ScenarioBeta`).

## Model

| member | source | states |
|---|---|---|
| Returns.Filled | sml_app_multi_tickers.py:27 | the padded price of a row, when there is one, is a price of that row or an earlier one; `Returns.FilledIsLatest` says which one |
| Returns.FilledIsLatest | sml_app_multi_tickers.py:27 | after the forward fill, a row holds the latest present price at or before it, and is missing exactly when no earlier price exists |
| Returns.Change | sml_app_multi_tickers.py:27 | a return exists exactly when the row is not the first and a filled price exists on the row before; the return takes the previous filled price to the current one |
| Returns.PctChange | sml_app_multi_tickers.py:27 | `pct_change` gives one cell per row of the column; `Returns.PctChangeCases` gives every cell's value, in each of its cases |
| Returns.PctChangeCases | sml_app_multi_tickers.py:27 | `pct_change` has no value up to and including a column's first price; a present price gives p[i] over the latest earlier price, minus one (p[i]/p[i−1] − 1 when the row before has a price, and across a gap otherwise); a padded row gives 0 |
| Returns.PctChangeStays | sml_app_multi_tickers.py:27 | once a column has a return, every later row has one |
| Returns.Kept | sml_app_multi_tickers.py:27 | `dropna` keeps the complete rows, strictly in order, and exactly those rows |
| Returns.DropIncomplete | sml_app_multi_tickers.py:27 | dropping rows keeps every column and label, and leaves a rectangular table no longer than the frame |
| Returns.DroppedRows | sml_app_multi_tickers.py:27 | the labels stay as they were, and row k of the result is the k-th complete row of the frame: its year, and in every column that row's value, which is present |
| Returns.KeptContiguous | sml_app_multi_tickers.py:27 | when completeness persists once reached, the kept rows are one stretch that ends at the last row |
| Returns.DailyReturns | sml_app_multi_tickers.py:27 | the daily returns table keeps the frame's labels, is rectangular, and has no more rows than the frame |
| Returns.DailyKept | sml_app_multi_tickers.py:27 | for a frame with at least one column, the rows `dropna` keeps are the frame's last rows and never its first |
| Returns.DailyWindow | sml_app_multi_tickers.py:27 | the daily table holds the returns of the frame's last rows, each taking the filled price of the row before to its own, with the years kept |
| Returns.DailyOfCompleteFrame | sml_app_multi_tickers.py:27 | with every price present, only the first row is dropped and each daily return is p[i+1]/p[i] − 1 |
| Returns.Telescope | sml_app_multi_tickers.py:28 | compounding consecutive daily returns gives the ratio of the last filled price to the one before the stretch |
| Returns.RunEnd | sml_app_multi_tickers.py:28 | the run of rows starting at s shares one year and is followed by another year or by the end |
| Returns.Runs | sml_app_multi_tickers.py:28 | the year groups are nonempty, follow one another without gaps, cover every row, hold one year each, and adjacent groups differ in year |
| Returns.AnnualReturns | sml_app_multi_tickers.py:28-29 | the annual table keeps the labels, is rectangular, has at most as many rows as the daily table, and is empty exactly when the daily table is empty |
| Returns.AnnualYearsIncreasing | sml_app_multi_tickers.py:28 | on dates in order, the annual rows carry strictly increasing years |
| Returns.AnnualYearsCover | sml_app_multi_tickers.py:28 | every year of the daily rows has an annual row, and every annual row is such a year |
| Returns.AnnualCell | sml_app_multi_tickers.py:28 | an annual cell is the compounded return (Π(1 + r) − 1) of its year's daily returns |
| Returns.AnnualKeepsGrowth | sml_app_multi_tickers.py:28 | compounding the annual returns gives the same total return as compounding the daily ones |
| Returns.AnnualOfFlatDays | sml_app_multi_tickers.py:28 | years whose daily returns are all zero have annual return zero |
| Returns.AnnualAsPriceRatio | sml_app_multi_tickers.py:26-28 | each annual return is the filled price on its year's last row over the filled price on the row before its first return, minus one, and the group covers exactly that year's rows |
| Returns.AnnualOfConstantPrices | sml_app_multi_tickers.py:26-28 | prices that never move give annual return zero in every year |
| Series.CompoundAppend | sml_app_multi_tickers.py:28 | compounding two consecutive stretches multiplies their growth factors |
| Series.MeanBounds | sml_app_multi_tickers.py:33 | the arithmetic mean lies between any lower and upper bound of the column |
| Stats.SampleVariance | sml_app_multi_tickers.py:35 | the sample variance (n − 1 denominator) is defined exactly from two observations on, and is never negative |
| Stats.VarianceZeroIffConstant | sml_app_multi_tickers.py:35 | the sample variance is zero exactly when the column is constant |
| Stats.RiskProfile | sml_app_multi_tickers.py:32-37 | hpr is each return plus one; the growth is 1 + the compounded return; the variance is defined from two years on, nonnegative, and zero exactly for a constant column; a constant column's mean is the constant; the mean is the column's arithmetic mean and the variance its sample variance |
| Stats.GeometricMeanOfConstant | sml_app_multi_tickers.py:34 | a constant annual return is its own geometric mean |
| Stats.GeometricMeanUnique | sml_app_multi_tickers.py:34 | at most one g ≥ −1 satisfies (1 + g)^n = Π hpr, so the relation pins the geometric mean down |
| Stats.CoefficientOfVariation | sml_app_multi_tickers.py:37 | the CV is defined exactly for a defined deviation and a nonzero mean, and then CV · mean = std |
| Stats.CvOfConstantSeries | sml_app_multi_tickers.py:35-37 | from two years on, a constant column has CV 0, or none when the constant is 0 |
| Regression.SpreadIffNotConstant | sml_app_multi_tickers.py:57-58 | the market column has positive spread Σ(x − x̄)² exactly when it is not constant |
| Regression.SlopeOfAffine | sml_app_multi_tickers.py:57-58 | a ticker moving as a + b·x against the market has beta b, or 0 when the market is flat |
| Regression.SlopeOfSelf | sml_app_multi_tickers.py:57-58 | the market regressed on itself has beta 1 when it is not flat |
| Regression.SlopeOfConstant | sml_app_multi_tickers.py:57-58 | a constant-return ticker has beta 0 |
| Regression.FittedResiduals | sml_app_multi_tickers.py:57-58 | the fitted residuals are the ticker's deviations minus beta times the market's deviations |
| Regression.ResidualsSumZero | sml_app_multi_tickers.py:57 | the residuals of the fitted line with intercept sum to zero |
| Regression.ResidualsOrthogonalToDeviations | sml_app_multi_tickers.py:57 | the fitted residuals are orthogonal to the market's deviations |
| Regression.NormalEquations | sml_app_multi_tickers.py:57-58 | the fit satisfies both normal equations of least squares with an intercept |
| Regression.OlsMinimizesSquaredError | sml_app_multi_tickers.py:57-58 | no other intercept and slope give a smaller squared error than the fitted ones |
| Capm.ExpectedReturn | sml_app_multi_tickers.py:59 | CAPM gives the risk-free rate at beta 0 and the market mean at beta 1 |
| Capm.ExpectedReturnOrder | sml_app_multi_tickers.py:59 | with a positive market premium, more beta means a higher expected return; with a negative one, a lower return; with none, the same return |
| Capm.ExpectedReturnLine | sml_app_multi_tickers.py:59 | two CAPM points differ by the premium times their difference in beta, so they lie on one line |
| Capm.RiskFreeRate | sml_app_multi_tickers.py:46-48 | the rate is defined exactly when there is a quote, and 100 times the rate is the average quote |
| Capm.RiskFreeRateBounds | sml_app_multi_tickers.py:47 | the rate lies between the lowest and highest quote divided by 100 |
| Sml.SmlTable | sml_app_multi_tickers.py:69-75 | the table is the ticker rows followed by one row ("Risk-Free", 0, rf) |
| Sml.MinBeta | sml_app_multi_tickers.py:84 | the minimum beta is at most every row's beta and is some row's beta |
| Sml.MaxBeta | sml_app_multi_tickers.py:85 | the maximum beta is at least every row's beta and is some row's beta |
| Sml.SmlLine | sml_app_multi_tickers.py:84-87 | the segment runs from the lowest to the highest beta of the table: every row's beta lies between the ends, each end is some row's beta, and both ends lie on the CAPM line |
| Sml.BetaRangeHasZero | sml_app_multi_tickers.py:69-85 | since the risk-free row is always in the table, the line's beta range contains 0 |
| Sml.CapmPointOnSegment | sml_app_multi_tickers.py:84-87 | every CAPM point with a beta in the table's range lies on the drawn segment |
| Sml.TableOnSegment | sml_app_multi_tickers.py:59-87 | with CAPM-priced rows, every table row and the point (0, rf) lie on the drawn segment |
| Tickers.Strip | sml_app_multi_tickers.py:17 | `strip` removes only white space, from both ends, and leaves no white space at either end |
| Tickers.StripBlank | sml_app_multi_tickers.py:17 | a field strips to nothing exactly when it is all white space |
| Tickers.StripClean | sml_app_multi_tickers.py:17 | text without white space at either end is left as it is |
| Tickers.StripIdempotent | sml_app_multi_tickers.py:17 | stripping twice is stripping once |
| Tickers.UpperChar | sml_app_multi_tickers.py:17 | upper-casing maps a–z to A–Z, leaves every other character alone, and leaves no lower-case letter |
| Tickers.Upper | sml_app_multi_tickers.py:17 | `upper` keeps the length, leaves no lower-case letter anywhere, and gives back unchanged a text that has none |
| Tickers.UpperKeepsSpaces | sml_app_multi_tickers.py:17 | upper-casing keeps white space where it is and is idempotent |
| Tickers.Split | sml_app_multi_tickers.py:17 | `split(',')` gives at least one field, and no field contains a comma |
| Tickers.JoinSplit | sml_app_multi_tickers.py:17 | joining the fields of a split with the separator gives back the text |
| Tickers.SplitJoin | sml_app_multi_tickers.py:17 | splitting a join of separator-free fields gives back the fields |
| Tickers.NonBlank | sml_app_multi_tickers.py:17 | the indices of the fields that are not blank after stripping, strictly in order |
| Tickers.Tokens | sml_app_multi_tickers.py:17 | the comprehension yields at most one token per field; `Tickers.TokensOfNonBlank` gives the tokens themselves |
| Tickers.TokensOfNonBlank | sml_app_multi_tickers.py:17 | the list comprehension yields exactly the token of every non-blank field, in order |
| Tickers.TokensClean | sml_app_multi_tickers.py:17 | every token is non-empty, has no white space at either end, and has no lower-case ASCII letter |
| Tickers.AddCustomTickers | sml_app_multi_tickers.py:16-18 | the multiselect choices stay in front, and empty text adds nothing |
| Tickers.AddedTokens | sml_app_multi_tickers.py:16-18 | what is appended is one token per non-blank comma-separated field, in order |
| Tickers.EmptyInputNoTokens | sml_app_multi_tickers.py:16 | empty text splits into one blank field and so yields no token |
| Tickers.ParseCustom | sml_app_multi_tickers.py:17 | the custom text yields at most one ticker per comma-separated field, and every ticker is non-empty, has no white space at either end, no lower-case ASCII letter and no comma; `Tickers.ParseJoined` gives it back clean input unchanged |
| Tickers.TokenWithoutComma | sml_app_multi_tickers.py:17 | stripping and upper-casing a comma-free field never make a comma |
| Tickers.ParseJoined | sml_app_multi_tickers.py:17 | clean, comma-free tickers written comma-separated parse back to themselves |
| Tickers.TokensOfClean | sml_app_multi_tickers.py:17 | fields that already are clean tokens are kept unchanged |
| Pipeline.Annual | sml_app_multi_tickers.py:26-28 | the annual table of the download keeps the labels and is rectangular |
| Pipeline.Profiles | sml_app_multi_tickers.py:32-37 | one risk profile per annual column, that column's own; each has one hpr per year and a variance exactly when there are two years or more |
| Pipeline.IndexOf | sml_app_multi_tickers.py:55-56 | it finds a position exactly when the label is present, and then the first such position |
| Pipeline.Column | sml_app_multi_tickers.py:56 | `annual_returns[[t]]` has one value per annual row |
| Pipeline.ColumnOfFirst | sml_app_multi_tickers.py:56 | `annual_returns[[t]]` is the column at the first position labelled t |
| Pipeline.TickerRow | sml_app_multi_tickers.py:56-61 | a ticker's row carries its own label, its beta is the least-squares slope of its own column against the market column, and it lies on the CAPM line of the market mean |
| Pipeline.TickerBetaIsOls | sml_app_multi_tickers.py:56-58 | no intercept and slope fit the ticker's column more closely than the fitted intercept with the row's beta |
| Pipeline.MarketRow | sml_app_multi_tickers.py:50-59 | the market as a ticker gets beta 1 and the market mean, unless it is flat |
| Pipeline.Put | sml_app_multi_tickers.py:60-61 | a dict assignment keeps a known key in place and puts a new key last, and the value is then in the dict |
| Pipeline.PutFrame | sml_app_multi_tickers.py:60-61 | nothing else changes: a new key is appended after the rows as they were; a known key takes the new value at its first position, and every other row stays as it was |
| Pipeline.Present | sml_app_multi_tickers.py:54-55 | the selected tickers kept by the loop are exactly those that have a column |
| Pipeline.PresentAt | sml_app_multi_tickers.py:54-55 | the positions of the selected tickers that have a column: strictly increasing, and exactly those positions |
| Pipeline.PresentInOrder | sml_app_multi_tickers.py:54-55 | the loop keeps the present tickers in selection order: the kept list is the selection read at the present positions |
| Pipeline.Dedup | sml_app_multi_tickers.py:60-64 | the dict's keys: every put ticker exactly once, and nothing else |
| Pipeline.DedupInOrder | sml_app_multi_tickers.py:60-64 | the keys come in the order of their first insertion |
| Pipeline.MultiRows | sml_app_multi_tickers.py:54-61 | the loop leaves at most one row per selected ticker; `Pipeline.MultiRowsAsKeys` gives the rows themselves |
| Pipeline.MultiRowsTickers | sml_app_multi_tickers.py:54-61 | the dict's keys are distinct, and each is a selected ticker that has a column |
| Pipeline.MultiRowsAsKeys | sml_app_multi_tickers.py:54-67 | the loop leaves one row per distinct selected ticker with a column, in order of first selection, each priced from its own column |
| Pipeline.PutExisting | sml_app_multi_tickers.py:60-61 | assigning a key the value it already holds leaves the dict as it was |
| Pipeline.Chart | sml_app_multi_tickers.py:32-93 | the chart's table is the rows then the risk-free row, its line is drawn over that table, and it carries the risk metrics of every annual column, the given rate and the given markers |
| Pipeline.ActualPoints | sml_app_multi_tickers.py:77-93 | one "Actual Return" marker per row of the dict; `Pipeline.MultiReport` places each at its ticker's beta and column mean |
| Pipeline.ChartOnSegment | sml_app_multi_tickers.py:63-87 | the chart lists the rows' tickers then "Risk-Free", uses the market mean, and every row lies on its line |
| Pipeline.MultiRun | sml_app_multi_tickers.py:25-102 | "no data" exactly for an empty annual table; an error exactly when the market column is missing, reported after the metrics of every column; otherwise the chart; the error and the chart both carry the risk profiles of the annual table, and the chart the given rate |
| Pipeline.MultiReport | sml_app_multi_tickers.py:54-96 | the table lists each distinct selected ticker with a column, then "Risk-Free"; every row is on the line; every ticker's actual-return marker sits at its beta and its column's mean |
| Pipeline.MultiExtend | sml_app_multi_tickers.py:54-61 | for the same downloaded prices, selecting again tickers already selected or without a column leaves the run as it was |
| Pipeline.MultiRowsExtend | sml_app_multi_tickers.py:54-61 | the same statement for the loop's dict |
| Pipeline.MultiRowsRepeat | sml_app_multi_tickers.py:54-61 | selecting a present ticker a second time leaves the dict as it was |
| Pipeline.CustomTickersRun | sml_app_multi_tickers.py:16-61 | for the same downloaded prices, custom tickers that repeat a choice or have no column leave the whole run as it was |
| Pipeline.FinalRows | sml_app_final.py:48-54 | all tickers are priced in order exactly when all have a column; otherwise it reports the first ticker without one |
| Pipeline.FinalRun | sml_app_final.py:19-86 | "no data" exactly for an empty table; an error exactly when the market or some ticker has no column, naming the market whenever its column is missing and otherwise the first missing ticker, after the metrics; otherwise the chart; the error and the chart both carry the risk profiles of the annual table, and the chart the given rate |
| Pipeline.FinalReport | sml_app_final.py:56-78 | the table lists every selected ticker in order, repeats included, then "Risk-Free"; every row is on the line; no actual-return markers |
| Pipeline.FinalAgreesWithMulti | sml_app_final.py:48-68 | with distinct tickers that all have a column, both scripts give the same metrics, table and line |
| Pipeline.ScenarioBeta | sml_app_multi_tickers.py:57-58 | the worked example's beta is exactly 215/146 |

## Left out

- User interface: Streamlit widgets, the Plotly figure and its styling are
  left out. Only the data a chart is drawn from is modelled.
- Downloading: the `yfinance` requests and the network are left out. The
  downloaded closes are an input (`PriceFrame`). Its column set decides which
  tickers are present.
- Dates: the start and end dates are left out. Each row carries its calendar
  year.
- Risk-free rate: the `^TNX` download is left out. `Capm.RiskFreeRate` models
  line 47 over a list of quotes. The runs take the resulting scalar `rf` as a
  parameter.
- Floating point: rounding, NaN and infinities are left out. Real arithmetic
  is used instead.
- Returns.PctChange: its own contract states only the length. The value of
  every cell is stated by `Returns.PctChangeCases` instead, because the
  daily-returns proofs unfold `PctChange` and a quantified contract there
  makes them much costlier.
- Zero prices: a zero or negative close would give an infinite return. It is
  excluded by requiring positive prices.
- Zero mean: a coefficient of variation over a zero mean is `Undefined`, not
  an IEEE infinity or NaN.
- Stats.RiskProfile: the roots are stated relationally, because square and
  n-th roots of reals are not computable here.
  - The standard deviation is related to the variance by `Stats.IsStdDev`.
  - The geometric mean is related to the growth by `Stats.IsGeometricMean`,
    and `Stats.GeometricMeanUnique` shows that at most one value fits.
  - The profile stores the variance and the growth Π hpr rather than the two
    roots.
- Empty years: `resample('Y')` also makes rows for calendar years between two
  years with data. Those rows would be all 1 − 1 = 0. They are left out; only
  years that have rows become annual rows.
- Missing risk-free quotes: a risk-free rate over no quotes (NaN in the
  source) is `None` in `Capm.RiskFreeRate`. The runs assume a rate exists.
- Tickers.UpperChar: upper-cases ASCII letters only. Python's Unicode case
  mapping for other letters is left out.
- Tickers.Upper: applies `Tickers.UpperChar` to each character, so it shares
  that ASCII-only limit.
- Duplicate labels: the download has one column per distinct ticker, so a
  label names one column. The model takes the first column with a label and
  does not model selecting several columns under one label.
- Other errors: errors other than a missing column are left out. The source
  reports them through its catch-all `except`, for instance a download
  failure.

=== FILE: capm.dfy ===
/** The Capital Asset Pricing Model's expected return and the risk-free rate it is anchored to. */
module Capm {
  import opened Options
  import opened Series

  /** rf + beta·(marketMean − rf): the return CAPM expects for systematic risk `beta`. */
  function ExpectedReturn(beta: real, rf: real, marketMean: real): (e: real)
    ensures beta == 0.0 ==> e == rf
    ensures beta == 1.0 ==> e == marketMean
  {
    rf + beta * (marketMean - rf)
  }

  /** Above a positive market premium, more beta means a higher expected return; below it, lower. */
  lemma ExpectedReturnOrder(b1: real, b2: real, rf: real, marketMean: real)
    requires b1 < b2
    ensures marketMean > rf ==> ExpectedReturn(b1, rf, marketMean) < ExpectedReturn(b2, rf, marketMean)
    ensures marketMean < rf ==> ExpectedReturn(b1, rf, marketMean) > ExpectedReturn(b2, rf, marketMean)
    ensures marketMean == rf ==> ExpectedReturn(b1, rf, marketMean) == ExpectedReturn(b2, rf, marketMean)
  {
    ExpectedReturnLine(b1, b2, rf, marketMean);
    SignOfProduct(ExpectedReturn(b2, rf, marketMean) - ExpectedReturn(b1, rf, marketMean), b2 - b1, marketMean - rf);
  }

  /** x = a·d with a > 0 has the sign of d. */
  lemma SignOfProduct(x: real, a: real, d: real)
    requires a > 0.0 && x == a * d
    ensures d > 0.0 ==> x > 0.0
    ensures d < 0.0 ==> x < 0.0
    ensures d == 0.0 ==> x == 0.0
  {
    if d > 0.0 {
      MulPositive(a, d);
    } else if d < 0.0 {
      MulPositive(a, -d);
      assert a * (-d) == -(a * d);
    }
  }

  /** Any two CAPM points differ by the market premium times their difference in beta:
      the expected returns lie on one straight line. */
  lemma ExpectedReturnLine(b1: real, b2: real, rf: real, marketMean: real)
    ensures ExpectedReturn(b2, rf, marketMean) - ExpectedReturn(b1, rf, marketMean) == (b2 - b1) * (marketMean - rf)
  {
  }

  /** `risk_free_data.mean() / 100`: the average ten-year yield, quoted in percent,
      as a rate; undefined without any quote. */
  function RiskFreeRate(quotes: seq<real>): (rf: Option<real>)
    ensures rf.Some? <==> |quotes| > 0
    ensures rf.Some? ==> rf.value * 100.0 == Mean(quotes)
  {
    if |quotes| == 0 then None else Some(Mean(quotes) / 100.0)
  }

  /** The rate lies between the lowest and the highest quote, scaled to a fraction. */
  lemma RiskFreeRateBounds(quotes: seq<real>, lo: real, hi: real)
    requires |quotes| > 0 && forall i :: 0 <= i < |quotes| ==> lo <= quotes[i] <= hi
    ensures lo / 100.0 <= RiskFreeRate(quotes).value <= hi / 100.0
  {
    MeanBounds(quotes, lo, hi);
  }
}

=== FILE: options.dfy ===
/** Optional values: a missing cell of a price table, or a statistic that is not defined. */
module Options {

  datatype Option<+T> = None | Some(value: T)
}

=== FILE: pipeline.dfy ===
/**
 One run of the analysis, from the downloaded close prices to the SML data set,
 in the two variants of the script: the multi-ticker one skips tickers without
 a column (and draws the average actual returns), the final one stops at the
 first ticker without a column.
 */
module Pipeline {
  import opened Options
  import opened Series
  import opened Stats
  import opened Regression
  import opened Returns
  import opened Capm
  import opened Sml
  import Tickers

  const MarketTicker: string := "^GSPC"

  /** The annual returns table of the downloaded prices. */
  function Annual(f: PriceFrame): (a: Table)
    requires WellFormed(f) && PositivePrices(f)
    ensures Rectangular(a) && a.names == f.names
  {
    AnnualReturns(DailyReturns(f))
  }

  /** The risk-metrics panel: one profile per column of the annual table. */
  function Profiles(a: Table): (ps: seq<Profile>)
    requires Rectangular(a) && !Empty(a)
    ensures |ps| == |a.columns|
    ensures forall j :: 0 <= j < |a.columns| ==> ps[j] == RiskProfile(a.columns[j])
    ensures forall j :: 0 <= j < |ps| ==> |ps[j].hpr| == |a.years| && (ps[j].variance.Some? <==> |a.years| >= 2)
  {
    seq(|a.columns|, j requires 0 <= j < |a.columns| => RiskProfile(a.columns[j]))
  }

  /** The first position of t in a list of labels, if any. */
  function IndexOf(names: seq<string>, t: string): (i: Option<nat>)
    ensures i.None? <==> t !in names
    ensures i.Some? ==> i.value < |names| && names[i.value] == t && t !in names[..i.value]
  {
    if |names| == 0 then None
    else if names[0] == t then Some(0)
    else
      match IndexOf(names[1..], t)
      case None => None
      case Some(k) =>
        assert names[..k + 1] == [names[0]] + names[1..][..k];
        Some(k + 1)
  }

  /** `annual_returns[[t]]`: the first column labelled t. */
  function Column(a: Table, t: string): (c: seq<real>)
    requires Rectangular(a) && t in a.names
    ensures |c| == |a.years|
  {
    a.columns[IndexOf(a.names, t).value]
  }

  /** The column of a label is the one at the label's first position. */
  lemma ColumnOfFirst(a: Table, t: string, i: nat)
    requires Rectangular(a) && i < |a.names| && a.names[i] == t && t !in a.names[..i]
    ensures Column(a, t) == a.columns[i]
  {
  }

  /** An annual table with at least one year and with its market column at `mi`. */
  predicate Ready(a: Table, mi: nat)
  {
    Rectangular(a) && |a.years| > 0 && mi < |a.columns|
  }

  /** The row a present ticker gets: its beta against the market column and the CAPM return at that beta. */
  function TickerRow(a: Table, mi: nat, t: string, rf: real): (r: SmlRow)
    requires Ready(a, mi) && t in a.names
    ensures r.ticker == t && OnLine(RowPoint(r), rf, Mean(a.columns[mi]))
    ensures r.beta == Slope(a.columns[mi], Column(a, t))
  {
    var x := a.columns[mi];
    var b := Slope(x, Column(a, t));
    SmlRow(t, b, ExpectedReturn(b, rf, Mean(x)))
  }

  /** A ticker's beta is the slope of the least-squares line through its column against the
      market's: no other intercept and slope fit the column more closely. */
  lemma TickerBetaIsOls(a: Table, mi: nat, t: string, rf: real, a': real, b': real)
    requires Ready(a, mi) && t in a.names
    ensures var x, y := a.columns[mi], Column(a, t);
      SquaredError(Intercept(x, y), TickerRow(a, mi, t, rf).beta, x, y) <= SquaredError(a', b', x, y)
  {
    OlsMinimizesSquaredError(a.columns[mi], Column(a, t), a', b');
  }

  /** A ticker that is the market itself gets beta 1 and the market's mean return, unless the market is flat. */
  lemma MarketRow(a: Table, rf: real)
    requires Rectangular(a) && |a.years| > 0 && MarketTicker in a.names
    ensures var mi := IndexOf(a.names, MarketTicker).value;
      Sxx(a.columns[mi]) > 0.0 ==> TickerRow(a, mi, MarketTicker, rf) == SmlRow(MarketTicker, 1.0, Mean(a.columns[mi]))
  {
    var mi := IndexOf(a.names, MarketTicker).value;
    if Sxx(a.columns[mi]) > 0.0 {
      SlopeOfSelf(a.columns[mi]);
    }
  }

  function TickersOf(rows: seq<SmlRow>): (ts: seq<string>)
    ensures |ts| == |rows| && forall i :: 0 <= i < |rows| ==> ts[i] == rows[i].ticker
  {
    seq(|rows|, i requires 0 <= i < |rows| => rows[i].ticker)
  }

  // ---------------------------------------------------------------------------
  // The multi-ticker variant

  /** `betas[t] = …` on an insertion-ordered dict: a known key keeps its place, a new key goes last. */
  function Put(rows: seq<SmlRow>, r: SmlRow): (out: seq<SmlRow>)
    ensures r in out
    ensures TickersOf(out) == if r.ticker in TickersOf(rows) then TickersOf(rows) else TickersOf(rows) + [r.ticker]
  {
    match IndexOf(TickersOf(rows), r.ticker)
    case None => rows + [r]
    case Some(i) =>
      assert rows[i := r][i] == r;
      rows[i := r]
  }

  /** Nothing else changes: a new key is appended after the rows as they were; a known key
      takes the new value at its first position, and every other row stays. */
  lemma PutFrame(rows: seq<SmlRow>, r: SmlRow)
    ensures r.ticker !in TickersOf(rows) ==> Put(rows, r) == rows + [r]
    ensures r.ticker in TickersOf(rows) ==>
      |Put(rows, r)| == |rows| &&
      forall k :: 0 <= k < |rows| ==>
        Put(rows, r)[k] == if rows[k].ticker == r.ticker && r.ticker !in TickersOf(rows)[..k] then r else rows[k]
  {
    if r.ticker in TickersOf(rows) {
      var i := IndexOf(TickersOf(rows), r.ticker).value;
      assert forall k :: 0 <= k < i ==> TickersOf(rows)[k] != r.ticker by {
        assert forall k :: 0 <= k < i ==> TickersOf(rows)[..i][k] == TickersOf(rows)[k];
      }
      assert forall k :: i < k < |rows| ==> r.ticker in TickersOf(rows)[..k] by {
        assert forall k :: i < k < |rows| ==> TickersOf(rows)[..k][i] == r.ticker;
      }
    }
  }

  /** The tickers of `sel` that have a column, in order. */
  function Present(sel: seq<string>, names: seq<string>): (p: seq<string>)
    ensures forall t :: t in p <==> t in sel && t in names
  {
    if |sel| == 0 then []
    else
      var init := Present(sel[..|sel| - 1], names);
      assert sel == sel[..|sel| - 1] + [sel[|sel| - 1]];
      if sel[|sel| - 1] in names then init + [sel[|sel| - 1]] else init
  }

  /** The positions of the selected tickers that have a column, in increasing order. */
  function PresentAt(sel: seq<string>, names: seq<string>): (ks: seq<nat>)
    ensures forall k :: 0 <= k < |ks| ==> ks[k] < |sel|
    ensures forall k, l :: 0 <= k < l < |ks| ==> ks[k] < ks[l]
    ensures forall i :: 0 <= i < |sel| ==> (i in ks <==> sel[i] in names)
  {
    if |sel| == 0 then []
    else
      var init := PresentAt(sel[..|sel| - 1], names);
      if sel[|sel| - 1] in names then init + [|sel| - 1] else init
  }

  /** The labels of `s` at the positions `ks`. */
  function At(s: seq<string>, ks: seq<nat>): (r: seq<string>)
    requires forall k :: 0 <= k < |ks| ==> ks[k] < |s|
    ensures |r| == |ks| && forall k :: 0 <= k < |ks| ==> r[k] == s[ks[k]]
  {
    seq(|ks|, k requires 0 <= k < |ks| => s[ks[k]])
  }

  /** The loop keeps the present tickers in the order they were selected: the kept list
      is `sel` read at the present positions. */
  lemma {:induction false} PresentInOrder(sel: seq<string>, names: seq<string>)
    ensures Present(sel, names) == At(sel, PresentAt(sel, names))
    decreases |sel|
  {
    if |sel| > 0 {
      var init, t := sel[..|sel| - 1], sel[|sel| - 1];
      assert sel == init + [t];
      PresentInOrder(init, names);
      PresentSnoc(init, t, names);
      PresentAtSnoc(init, t, names);
      AtSnoc(init, t, PresentAt(init, names));
    }
  }

  lemma PresentAtSnoc(s: seq<string>, t: string, names: seq<string>)
    ensures PresentAt(s + [t], names) == if t in names then PresentAt(s, names) + [|s|] else PresentAt(s, names)
  {
    assert (s + [t])[..|s|] == s;
  }

  lemma AtSnoc(s: seq<string>, t: string, ks: seq<nat>)
    requires forall k :: 0 <= k < |ks| ==> ks[k] < |s|
    ensures At(s + [t], ks) == At(s, ks)
    ensures At(s + [t], ks + [|s|]) == At(s, ks) + [t]
  {
  }

  /** The first occurrence of every element, in order. */
  function Dedup(s: seq<string>): (d: seq<string>)
    ensures forall t :: t in d <==> t in s
    ensures forall i, k :: 0 <= i < k < |d| ==> d[i] != d[k]
  {
    if |s| == 0 then []
    else
      var init := Dedup(s[..|s| - 1]);
      assert s == s[..|s| - 1] + [s[|s| - 1]];
      if s[|s| - 1] in init then init else init + [s[|s| - 1]]
  }

  /** The kept elements come in the order of their first occurrences. */
  lemma {:induction false} DedupInOrder(s: seq<string>)
    ensures forall i, k :: 0 <= i < k < |Dedup(s)| ==> IndexOf(s, Dedup(s)[i]).value < IndexOf(s, Dedup(s)[k]).value
    decreases |s|
  {
    if |s| > 0 {
      var init, t := s[..|s| - 1], s[|s| - 1];
      assert s == init + [t];
      DedupInOrder(init);
      DedupInOrderStep(init, t);
    }
  }

  lemma DedupInOrderStep(s: seq<string>, t: string)
    requires forall i, k :: 0 <= i < k < |Dedup(s)| ==> IndexOf(s, Dedup(s)[i]).value < IndexOf(s, Dedup(s)[k]).value
    ensures forall i, k :: 0 <= i < k < |Dedup(s + [t])| ==>
      IndexOf(s + [t], Dedup(s + [t])[i]).value < IndexOf(s + [t], Dedup(s + [t])[k]).value
  {
    DedupSnoc(s, t);
    var d, d0 := Dedup(s + [t]), Dedup(s);
    forall i, k | 0 <= i < k < |d|
      ensures IndexOf(s + [t], d[i]).value < IndexOf(s + [t], d[k]).value
    {
      IndexOfOld(s, t, d0[i]);
      if k < |d0| {
        IndexOfOld(s, t, d0[k]);
      } else {
        IndexOfNew(s, t);
      }
    }
  }

  /** Appending a label keeps the first position of a label already present. */
  lemma IndexOfOld(s: seq<string>, t: string, u: string)
    requires u in s
    ensures IndexOf(s + [t], u) == IndexOf(s, u)
  {
    var i := IndexOf(s, u).value;
    assert (s + [t])[..i] == s[..i];
    IndexOfFirst(s + [t], u, i);
  }

  /** A label appended for the first time is found at the end. */
  lemma IndexOfNew(s: seq<string>, t: string)
    requires t !in s
    ensures IndexOf(s + [t], t) == Some(|s|)
  {
    assert (s + [t])[..|s|] == s;
    IndexOfFirst(s + [t], t, |s|);
  }

  /** The first position of a label is unique. */
  lemma IndexOfFirst(s: seq<string>, t: string, i: nat)
    requires i < |s| && s[i] == t && t !in s[..i]
    ensures IndexOf(s, t) == Some(i)
  {
  }

  /** Lines 54–61: the dict of betas and expected returns, built ticker by ticker, skipping
      tickers without a column. */
  function MultiRows(a: Table, mi: nat, sel: seq<string>, rf: real): (rows: seq<SmlRow>)
    requires Ready(a, mi)
    ensures |rows| <= |sel|
    decreases |sel|
  {
    if |sel| == 0 then []
    else
      var prev := MultiRows(a, mi, sel[..|sel| - 1], rf);
      var t := sel[|sel| - 1];
      if t in a.names then Put(prev, TickerRow(a, mi, t, rf)) else prev
  }

  /** The rows of tickers that all have a column, each priced from its own column. */
  function RowsOf(a: Table, mi: nat, ts: seq<string>, rf: real): (rows: seq<SmlRow>)
    requires Ready(a, mi) && forall i :: 0 <= i < |ts| ==> ts[i] in a.names
    ensures |rows| == |ts| && forall i :: 0 <= i < |ts| ==> rows[i] == TickerRow(a, mi, ts[i], rf)
  {
    seq(|ts|, i requires 0 <= i < |ts| => TickerRow(a, mi, ts[i], rf))
  }

  lemma RowsOfSnoc(a: Table, mi: nat, ts: seq<string>, t: string, rf: real)
    requires Ready(a, mi) && t in a.names && forall i :: 0 <= i < |ts| ==> ts[i] in a.names
    ensures forall i :: 0 <= i < |ts + [t]| ==> (ts + [t])[i] in a.names
    ensures RowsOf(a, mi, ts + [t], rf) == RowsOf(a, mi, ts, rf) + [TickerRow(a, mi, t, rf)]
  {
    assert forall i :: 0 <= i < |ts| ==> (ts + [t])[i] == ts[i];
  }

  /** The tickers the dict ends up keyed by: the distinct selected tickers that have a column. */
  function Keys(sel: seq<string>, names: seq<string>): (keys: seq<string>)
    ensures forall k :: 0 <= k < |keys| ==> keys[k] in names
  {
    Dedup(Present(sel, names))
  }

  /** The dict holds one row per distinct present ticker, in order of first selection,
      each priced from its own column. */
  lemma {:induction false} MultiRowsAsKeys(a: Table, mi: nat, sel: seq<string>, rf: real)
    requires Ready(a, mi)
    ensures MultiRows(a, mi, sel, rf) == RowsOf(a, mi, Keys(sel, a.names), rf)
    decreases |sel|
  {
    if |sel| > 0 {
      MultiRowsAsKeys(a, mi, sel[..|sel| - 1], rf);
      KeysStepLast(a, mi, sel, rf);
    }
  }

  /** The dict is keyed by distinct selected tickers that have a column. */
  lemma MultiRowsTickers(a: Table, mi: nat, sel: seq<string>, rf: real)
    requires Ready(a, mi)
    ensures var rows := MultiRows(a, mi, sel, rf);
      && (forall k :: 0 <= k < |rows| ==> rows[k].ticker in sel && rows[k].ticker in a.names)
      && forall i, k :: 0 <= i < k < |rows| ==> rows[i].ticker != rows[k].ticker
  {
    MultiRowsAsKeys(a, mi, sel, rf);
    var keys := Keys(sel, a.names);
    assert forall k :: 0 <= k < |keys| ==> keys[k] in Present(sel, a.names);
  }

  /** One more selected ticker: the dict and the rows of the keys grow alike. */
  lemma KeysStepLast(a: Table, mi: nat, sel: seq<string>, rf: real)
    requires Ready(a, mi) && |sel| > 0
    requires MultiRows(a, mi, sel[..|sel| - 1], rf) == RowsOf(a, mi, Keys(sel[..|sel| - 1], a.names), rf)
    ensures MultiRows(a, mi, sel, rf) == RowsOf(a, mi, Keys(sel, a.names), rf)
  {
    var init, t := sel[..|sel| - 1], sel[|sel| - 1];
    if t in a.names {
      assert Present(sel, a.names) == Present(init, a.names) + [t];
      DedupSnoc(Present(init, a.names), t);
      if t in Keys(init, a.names) {
        KeysStepOld(a, mi, init, t, rf);
      } else {
        KeysStepNew(a, mi, init, t, rf);
      }
    } else {
      assert Present(sel, a.names) == Present(init, a.names);
    }
  }

  lemma KeysStepOld(a: Table, mi: nat, init: seq<string>, t: string, rf: real)
    requires Ready(a, mi) && t in a.names && t in Keys(init, a.names)
    requires MultiRows(a, mi, init, rf) == RowsOf(a, mi, Keys(init, a.names), rf)
    ensures Put(MultiRows(a, mi, init, rf), TickerRow(a, mi, t, rf)) == MultiRows(a, mi, init, rf)
  {
    PutExisting(MultiRows(a, mi, init, rf), TickerRow(a, mi, t, rf));
  }

  lemma KeysStepNew(a: Table, mi: nat, init: seq<string>, t: string, rf: real)
    requires Ready(a, mi) && t in a.names && t !in Keys(init, a.names)
    requires MultiRows(a, mi, init, rf) == RowsOf(a, mi, Keys(init, a.names), rf)
    ensures forall i :: 0 <= i < |Keys(init, a.names) + [t]| ==> (Keys(init, a.names) + [t])[i] in a.names
    ensures Put(MultiRows(a, mi, init, rf), TickerRow(a, mi, t, rf))
         == RowsOf(a, mi, Keys(init, a.names) + [t], rf)
  {
    var prev := MultiRows(a, mi, init, rf);
    assert t !in TickersOf(prev);
    RowsOfSnoc(a, mi, Keys(init, a.names), t, rf);
  }

  /** Re-assigning a key to the value it already holds leaves the dict as it was. */
  lemma PutExisting(rows: seq<SmlRow>, r: SmlRow)
    requires r.ticker in TickersOf(rows)
    requires forall k :: 0 <= k < |rows| && rows[k].ticker == r.ticker ==> rows[k] == r
    ensures Put(rows, r) == rows
  {
    var i := IndexOf(TickersOf(rows), r.ticker).value;
    assert rows[i] == r;
    assert rows[i := r] == rows;
  }

  lemma PresentSnoc(s: seq<string>, t: string, names: seq<string>)
    ensures Present(s + [t], names) == if t in names then Present(s, names) + [t] else Present(s, names)
  {
    assert (s + [t])[..|s|] == s;
  }

  lemma DedupSnoc(s: seq<string>, t: string)
    ensures Dedup(s + [t]) == if t in s then Dedup(s) else Dedup(s) + [t]
  {
    assert (s + [t])[..|s|] == s;
  }

  /** The results the multi-ticker script hands to the chart. `actual` holds the
      "Actual Return" markers; the final script draws none. */
  datatype Report = Report(stats: seq<Profile>, rf: real, marketMean: real,
                           table: seq<SmlRow>, line: Segment, actual: seq<Point>)

  /** How a run ends: the "no data" message, an error after the risk metrics were
      written (a ticker without a column), or the chart. */
  datatype Run = NoData | Aborted(stats: seq<Profile>, missing: string) | Done(report: Report)

  /** The average annual return of every ticker in the table, at its beta. */
  function ActualPoints(a: Table, rows: seq<SmlRow>): (ps: seq<Point>)
    requires Rectangular(a) && |a.years| > 0 && forall k :: 0 <= k < |rows| ==> rows[k].ticker in a.names
    ensures |ps| == |rows|
  {
    seq(|rows|, k requires 0 <= k < |rows| => Point(rows[k].beta, Mean(Column(a, rows[k].ticker))))
  }

  /** The chart of an annual table with a market column, from its ticker rows. */
  function Chart(a: Table, mi: nat, rows: seq<SmlRow>, rf: real, actual: seq<Point>): (rep: Report)
    requires Ready(a, mi)
    ensures |rep.table| == |rows| + 1
    ensures rep.table[..|rows|] == rows && rep.table[|rows|] == RiskFreeRow(rf)
    ensures rep.line == SmlLine(rep.table, rf, rep.marketMean)
    ensures rep.stats == Profiles(a) && rep.rf == rf && rep.actual == actual
  {
    var table := SmlTable(rows, rf);
    var mm := Mean(a.columns[mi]);
    Report(Profiles(a), rf, mm, table, SmlLine(table, rf, mm), actual)
  }

  /** With every ticker row priced by CAPM, the chart's table lists the rows' tickers and then
      the risk-free one, and each of its rows lies on the drawn line. */
  lemma ChartOnSegment(a: Table, mi: nat, rows: seq<SmlRow>, rf: real, actual: seq<Point>)
    requires Ready(a, mi)
    requires forall k :: 0 <= k < |rows| ==> OnLine(RowPoint(rows[k]), rf, Mean(a.columns[mi]))
    ensures var rep := Chart(a, mi, rows, rf, actual);
      && TickersOf(rep.table) == TickersOf(rows) + [RiskFreeTicker]
      && rep.marketMean == Mean(a.columns[mi])
      && forall i :: 0 <= i < |rep.table| ==> OnSegment(RowPoint(rep.table[i]), rep.line, rf, rep.marketMean)
  {
    var rep := Chart(a, mi, rows, rf, actual);
    TableOnSegment(rows, rf, Mean(a.columns[mi]));
    assert TickersOf(rep.table) == TickersOf(rows) + [RiskFreeTicker];
  }

  /** sml_app_multi_tickers.py, lines 25–102, including the catch-all `except` only as far as a missing column goes. */
  function MultiRun(f: PriceFrame, sel: seq<string>, rf: real): (r: Run)
    requires WellFormed(f) && PositivePrices(f)
    ensures r.NoData? <==> Empty(Annual(f))
    ensures r.Aborted? <==> !Empty(Annual(f)) && MarketTicker !in f.names
    ensures r.Aborted? ==> r.missing == MarketTicker && |r.stats| == |f.names|
    ensures r.Aborted? ==> r.stats == Profiles(Annual(f))
    ensures r.Done? ==> r.report.stats == Profiles(Annual(f)) && r.report.rf == rf
  {
    var a := Annual(f);
    if Empty(a) then NoData
    else
      match IndexOf(a.names, MarketTicker)
      case None => Aborted(Profiles(a), MarketTicker)
      case Some(mi) =>
        var rows := MultiRows(a, mi, sel, rf);
        MultiRowsAsKeys(a, mi, sel, rf);
        Done(Chart(a, mi, rows, rf, ActualPoints(a, rows)))
  }

  /** A finished multi-ticker run tabulates each distinct selected ticker that has a column,
      in order of first selection, then the risk-free row; every row lies on the drawn line,
      and every ticker has an actual-return marker at its beta. */
  lemma MultiReport(f: PriceFrame, sel: seq<string>, rf: real)
    requires WellFormed(f) && PositivePrices(f) && MultiRun(f, sel, rf).Done?
    ensures var rep, a := MultiRun(f, sel, rf).report, Annual(f);
      var keys := Keys(sel, f.names);
      && TickersOf(rep.table) == keys + [RiskFreeTicker]
      && rep.marketMean == Mean(Column(a, MarketTicker))
      && (forall i :: 0 <= i < |rep.table| ==> OnSegment(RowPoint(rep.table[i]), rep.line, rf, rep.marketMean))
      && |rep.actual| == |keys|
      && (forall k :: 0 <= k < |keys| ==>
            rep.actual[k] == Point(rep.table[k].beta, Mean(Column(a, keys[k]))))
  {
    var a := Annual(f);
    var mi := IndexOf(a.names, MarketTicker).value;
    var rows := MultiRows(a, mi, sel, rf);
    var keys := Keys(sel, f.names);
    MultiRowsAsKeys(a, mi, sel, rf);
    assert MultiRun(f, sel, rf).report == Chart(a, mi, rows, rf, ActualPoints(a, rows));
    ChartOnSegment(a, mi, rows, rf, ActualPoints(a, rows));
    assert TickersOf(rows) == keys;
  }

  /** Adding tickers that are already selected or have no column changes nothing; in
      particular a custom ticker repeating a multiselect choice does not add a second row. */
  lemma MultiExtend(f: PriceFrame, sel: seq<string>, extra: seq<string>, rf: real)
    requires WellFormed(f) && PositivePrices(f)
    requires forall i :: 0 <= i < |extra| ==> extra[i] in sel || extra[i] !in f.names
    ensures MultiRun(f, sel + extra, rf) == MultiRun(f, sel, rf)
  {
    var a := Annual(f);
    if !Empty(a) && MarketTicker in a.names {
      MultiRowsExtend(a, IndexOf(a.names, MarketTicker).value, sel, extra, rf);
    }
  }

  lemma {:induction false} MultiRowsExtend(a: Table, mi: nat, sel: seq<string>, extra: seq<string>, rf: real)
    requires Ready(a, mi)
    requires forall i :: 0 <= i < |extra| ==> extra[i] in sel || extra[i] !in a.names
    ensures MultiRows(a, mi, sel + extra, rf) == MultiRows(a, mi, sel, rf)
    decreases |extra|
  {
    if |extra| == 0 {
      assert sel + extra == sel;
    } else {
      var s, init := sel + extra, extra[..|extra| - 1];
      MultiRowsExtend(a, mi, sel, init, rf);
      assert s[..|s| - 1] == sel + init;
      ExtendStep(a, mi, sel, s, rf);
    }
  }

  /** A ticker already selected or without a column, selected once more, keeps the dict as it was. */
  lemma ExtendStep(a: Table, mi: nat, sel: seq<string>, s: seq<string>, rf: real)
    requires Ready(a, mi) && |s| > 0
    requires s[|s| - 1] in s[..|s| - 1] || s[|s| - 1] !in a.names
    requires MultiRows(a, mi, s[..|s| - 1], rf) == MultiRows(a, mi, sel, rf)
    ensures MultiRows(a, mi, s, rf) == MultiRows(a, mi, sel, rf)
  {
    var p, t := s[..|s| - 1], s[|s| - 1];
    if t in a.names {
      MultiRowsAsKeys(a, mi, p, rf);
      assert t in Present(p, a.names);
      KeysStepOld(a, mi, p, t, rf);
    }
  }

  /** Selecting a present ticker a second time leaves the dict as it was. */
  lemma MultiRowsRepeat(a: Table, mi: nat, sel: seq<string>, t: string, rf: real)
    requires Ready(a, mi) && t in sel && t in a.names
    ensures MultiRows(a, mi, sel + [t], rf) == MultiRows(a, mi, sel, rf)
  {
    var s := sel + [t];
    assert s[..|s| - 1] == sel;
    MultiRowsAsKeys(a, mi, sel, rf);
    PutExisting(MultiRows(a, mi, sel, rf), TickerRow(a, mi, t, rf));
  }

  /** Lines 16–18 with the rest: custom tickers that repeat a multiselect choice or have
      no column leave the whole run as it was. */
  lemma CustomTickersRun(f: PriceFrame, sel: seq<string>, input: string, rf: real)
    requires WellFormed(f) && PositivePrices(f)
    requires var ts := Tickers.ParseCustom(input);
      forall i :: 0 <= i < |ts| ==> ts[i] in sel || ts[i] !in f.names
    ensures MultiRun(f, Tickers.AddCustomTickers(sel, input), rf) == MultiRun(f, sel, rf)
  {
    if input != "" {
      MultiExtend(f, sel, Tickers.ParseCustom(input), rf);
    }
  }

  // ---------------------------------------------------------------------------
  // The final variant

  /** The ticker rows of the final script: priced in selection order, or the first ticker without a column. */
  datatype Pricing = Missing(ticker: string) | Priced(rows: seq<SmlRow>)

  /** Lines 48–54: every ticker is looked up, and the first one without a column raises. */
  function FinalRows(a: Table, mi: nat, ts: seq<string>, rf: real): (p: Pricing)
    requires Ready(a, mi)
    ensures p.Priced? <==> forall i :: 0 <= i < |ts| ==> ts[i] in a.names
    ensures p.Missing? ==> (p.ticker !in a.names
      && exists i :: 0 <= i < |ts| && ts[i] == p.ticker && forall k :: 0 <= k < i ==> ts[k] in a.names)
    ensures p.Priced? ==> |p.rows| == |ts| && forall i :: 0 <= i < |ts| ==> p.rows[i] == TickerRow(a, mi, ts[i], rf)
    decreases |ts|
  {
    if |ts| == 0 then Priced([])
    else if ts[0] !in a.names then Missing(ts[0])
    else
      match FinalRows(a, mi, ts[1..], rf)
      case Missing(t) =>
        assert forall k :: 1 <= k < |ts| ==> ts[k] == ts[1..][k - 1];
        Missing(t)
      case Priced(rows) =>
        PricedCons(a, mi, ts, rows, rf);
        Priced([TickerRow(a, mi, ts[0], rf)] + rows)
  }

  lemma PricedCons(a: Table, mi: nat, ts: seq<string>, rows: seq<SmlRow>, rf: real)
    requires Ready(a, mi) && |ts| > 0 && ts[0] in a.names
    requires forall i :: 0 <= i < |ts| - 1 ==> ts[1..][i] in a.names
    requires |rows| == |ts| - 1 && forall i :: 0 <= i < |rows| ==> rows[i] == TickerRow(a, mi, ts[1..][i], rf)
    ensures forall i :: 0 <= i < |ts| ==> ts[i] in a.names
    ensures var p := [TickerRow(a, mi, ts[0], rf)] + rows;
      |p| == |ts| && forall i :: 0 <= i < |ts| ==> p[i] == TickerRow(a, mi, ts[i], rf)
  {
    assert forall k :: 1 <= k < |ts| ==> ts[k] == ts[1..][k - 1];
  }

  /** sml_app_final.py, lines 19–86, including the catch-all `except` only as far as a missing column goes. */
  function FinalRun(f: PriceFrame, ts: seq<string>, rf: real): (r: Run)
    requires WellFormed(f) && PositivePrices(f)
    ensures r.NoData? <==> Empty(Annual(f))
    ensures r.Aborted? <==> (!Empty(Annual(f))
      && (MarketTicker !in f.names || exists i :: 0 <= i < |ts| && ts[i] !in f.names))
    ensures r.Aborted? ==> (|r.stats| == |f.names|
      && (r.missing == MarketTicker || (r.missing in ts && r.missing !in f.names)))
    ensures r.Aborted? && MarketTicker in f.names ==> (r.missing !in f.names
      && exists i :: 0 <= i < |ts| && ts[i] == r.missing && forall k :: 0 <= k < i ==> ts[k] in f.names)
    ensures r.Aborted? && MarketTicker !in f.names ==> r.missing == MarketTicker
    ensures r.Aborted? ==> r.stats == Profiles(Annual(f))
    ensures r.Done? ==> r.report.stats == Profiles(Annual(f)) && r.report.rf == rf
  {
    var a := Annual(f);
    if Empty(a) then NoData
    else
      match IndexOf(a.names, MarketTicker)
      case None => Aborted(Profiles(a), MarketTicker)
      case Some(mi) =>
        match FinalRows(a, mi, ts, rf)
        case Missing(t) => Aborted(Profiles(a), t)
        case Priced(rows) => Done(Chart(a, mi, rows, rf, []))
  }

  /** A finished final run tabulates every selected ticker in selection order, repeats
      included, then the risk-free row, and every row lies on the drawn line. */
  lemma FinalReport(f: PriceFrame, ts: seq<string>, rf: real)
    requires WellFormed(f) && PositivePrices(f) && FinalRun(f, ts, rf).Done?
    ensures var rep := FinalRun(f, ts, rf).report;
      && TickersOf(rep.table) == ts + [RiskFreeTicker]
      && rep.marketMean == Mean(Column(Annual(f), MarketTicker))
      && (forall i :: 0 <= i < |rep.table| ==> OnSegment(RowPoint(rep.table[i]), rep.line, rf, rep.marketMean))
      && rep.actual == []
  {
    var a := Annual(f);
    var mi := IndexOf(a.names, MarketTicker).value;
    var rows := FinalRows(a, mi, ts, rf).rows;
    assert FinalRun(f, ts, rf).report == Chart(a, mi, rows, rf, []);
    ChartOnSegment(a, mi, rows, rf, []);
    assert TickersOf(rows) == ts;
  }

  /** With distinct tickers that all have a column, the two variants draw the same table and line. */
  lemma FinalAgreesWithMulti(f: PriceFrame, ts: seq<string>, rf: real)
    requires WellFormed(f) && PositivePrices(f)
    requires forall i :: 0 <= i < |ts| ==> ts[i] in f.names
    requires forall i, k :: 0 <= i < k < |ts| ==> ts[i] != ts[k]
    ensures FinalRun(f, ts, rf).Done? <==> MultiRun(f, ts, rf).Done?
    ensures FinalRun(f, ts, rf).Done? ==>
      var p, q := FinalRun(f, ts, rf).report, MultiRun(f, ts, rf).report;
      p.table == q.table && p.line == q.line && p.stats == q.stats
  {
    var a := Annual(f);
    if !Empty(a) && MarketTicker in a.names {
      var mi := IndexOf(a.names, MarketTicker).value;
      DedupPresentAll(ts, f.names);
      MultiRowsAsKeys(a, mi, ts, rf);
      var m := MultiRows(a, mi, ts, rf);
      var p := FinalRows(a, mi, ts, rf).rows;
      assert m == p;
    }
  }

  lemma {:induction false} DedupPresentAll(ts: seq<string>, names: seq<string>)
    requires forall i :: 0 <= i < |ts| ==> ts[i] in names
    requires forall i, k :: 0 <= i < k < |ts| ==> ts[i] != ts[k]
    ensures Keys(ts, names) == ts
    decreases |ts|
  {
    if |ts| > 0 {
      var init := ts[..|ts| - 1];
      var t := ts[|ts| - 1];
      DedupPresentAll(init, names);
      var p := Present(ts, names);
      assert p == Present(init, names) + [t];
      assert p[..|p| - 1] == Present(init, names);
      assert t !in init;
      assert init + [t] == ts;
    }
  }

  /** The worked scenario: returns [0.10, 0.20, −0.05] against a market at [0.08, 0.15, −0.02]
      have beta exactly 215/146 (about 1.47). */
  lemma ScenarioBeta()
    ensures Slope([0.08, 0.15, -0.02], [0.10, 0.20, -0.05]) == 215.0 / 146.0
  {
    var x, y := [0.08, 0.15, -0.02], [0.10, 0.20, -0.05];
    assert Mean(x) == 0.07;
    assert Mean(y) == 0.25 / 3.0;
    assert Sxx(x) == 0.0146;
    assert Sxy(x, y) == 0.0215;
  }
}

=== FILE: regression.dfy ===
/**
 Beta estimation: the ordinary-least-squares fit of a ticker's annual returns
 (dependent) on the market's annual returns (independent), as a single-feature
 `LinearRegression` with an intercept computes it.
 */
module Regression {
  import opened Series

  /** Σ(x − x̄)², the spread of the market column. */
  function Sxx(x: seq<real>): real
    requires |x| > 0
  {
    Dot(Deviations(x), Deviations(x))
  }

  /** Σ(x − x̄)(y − ȳ), the co-movement of the two columns. */
  function Sxy(x: seq<real>, y: seq<real>): real
    requires |x| == |y| > 0
  {
    Dot(Deviations(x), Deviations(y))
  }

  /** The fitted coefficient `coef_[0][0]`. When the market column is constant the
      least-squares problem has many solutions and the minimum-norm one, slope 0, is returned. */
  function Slope(x: seq<real>, y: seq<real>): real
    requires |x| == |y| > 0
  {
    if Sxx(x) == 0.0 then 0.0 else Sxy(x, y) / Sxx(x)
  }

  /** The fitted `intercept_`: the line passes through the point of means. */
  function Intercept(x: seq<real>, y: seq<real>): real
    requires |x| == |y| > 0
  {
    Mean(y) - Slope(x, y) * Mean(x)
  }

  /** The residuals y − (a + b·x) of the line with intercept a and slope b. */
  function Residuals(a: real, b: real, x: seq<real>, y: seq<real>): (e: seq<real>)
    requires |x| == |y|
    ensures |e| == |x|
  {
    seq(|x|, i requires 0 <= i < |x| => y[i] - (a + b * x[i]))
  }

  /** The least-squares objective Σ(y − (a + b·x))². */
  function SquaredError(a: real, b: real, x: seq<real>, y: seq<real>): real
    requires |x| == |y|
  {
    Dot(Residuals(a, b, x, y), Residuals(a, b, x, y))
  }

  /** The column a + b·x. */
  function Affine(a: real, b: real, x: seq<real>): (y: seq<real>)
    ensures |y| == |x|
  {
    seq(|x|, i requires 0 <= i < |x| => a + b * x[i])
  }

  /** The market column has spread exactly when it is not constant. */
  lemma SpreadIffNotConstant(x: seq<real>)
    requires |x| > 0
    ensures Sxx(x) > 0.0 <==> !AllEqual(x, x[0])
    ensures Sxx(x) >= 0.0
  {
    var d := Deviations(x);
    DotSelfNonneg(d);
    if AllEqual(x, x[0]) {
      DeviationsAllEqual(x, x[0]);
      DotZeroLeft(d, d);
    } else {
      var i :| 0 <= i < |x| && x[i] != x[0];
      var j := if x[i] != Mean(x) then i else 0;
      assert d[j] != 0.0;
      DotSelfPositive(d, j);
    }
  }

  /** Without spread every deviation of the market column is zero. */
  lemma NoSpreadNoDeviation(x: seq<real>)
    requires |x| > 0 && Sxx(x) == 0.0
    ensures AllEqual(Deviations(x), 0.0)
  {
    var d := Deviations(x);
    forall i | 0 <= i < |d|
      ensures d[i] == 0.0
    {
      if d[i] != 0.0 {
        DotSelfPositive(d, i);
      }
    }
  }

  /** An affine column is a linear combination of the ones column and the market column. */
  lemma AffineAsLin(a: real, b: real, x: seq<real>)
    ensures Affine(a, b, x) == Lin(a, Ones(|x|), b, x)
  {
    var l, r := Affine(a, b, x), Lin(a, Ones(|x|), b, x);
    forall i | 0 <= i < |x|
      ensures l[i] == r[i]
    {
      assert r[i] == a * 1.0 + b * x[i];
    }
  }

  lemma AffineQuotient(a: real, b: real, s: real, n: real)
    requires n > 0.0
    ensures (a * n + b * s) / n == a + b * (s / n)
  {
    assert a * n / n == a;
    assert (b * s) / n == b * (s / n);
  }

  /** The mean of a + b·x is a + b times the mean of x. */
  lemma MeanOfAffine(a: real, b: real, x: seq<real>)
    requires |x| > 0
    ensures Mean(Affine(a, b, x)) == a + b * Mean(x)
  {
    var n := |x|;
    AffineAsLin(a, b, x);
    SumLin(a, Ones(n), b, x);
    SumAllEqual(Ones(n), 1.0);
    assert Sum(Affine(a, b, x)) == a * n as real + b * Sum(x);
    AffineQuotient(a, b, Sum(x), n as real);
  }

  lemma DeviationsOfAffine(a: real, b: real, x: seq<real>)
    requires |x| > 0
    ensures Deviations(Affine(a, b, x)) == Lin(b, Deviations(x), 0.0, Deviations(x))
  {
    MeanOfAffine(a, b, x);
    var l, r := Deviations(Affine(a, b, x)), Lin(b, Deviations(x), 0.0, Deviations(x));
    forall i | 0 <= i < |x|
      ensures l[i] == r[i]
    {
      assert l[i] == (a + b * x[i]) - (a + b * Mean(x));
      assert r[i] == b * (x[i] - Mean(x)) + 0.0 * (x[i] - Mean(x));
    }
  }

  /** A ticker moving as y = a + b·x against the market has beta b (or 0 when the market is flat). */
  lemma SlopeOfAffine(a: real, b: real, x: seq<real>)
    requires |x| > 0
    ensures Slope(x, Affine(a, b, x)) == if Sxx(x) == 0.0 then 0.0 else b
  {
    var d := Deviations(x);
    DeviationsOfAffine(a, b, x);
    DotLin(d, b, d, 0.0, d);
    assert Sxy(x, Affine(a, b, x)) == b * Sxx(x);
  }

  /** The market itself has beta 1 whenever it is not flat. */
  lemma SlopeOfSelf(x: seq<real>)
    requires |x| > 0 && Sxx(x) > 0.0
    ensures Slope(x, x) == 1.0
  {
    SlopeOfAffine(0.0, 1.0, x);
    assert Affine(0.0, 1.0, x) == x;
  }

  /** A constant-return ticker has beta 0. */
  lemma SlopeOfConstant(x: seq<real>, y: seq<real>, c: real)
    requires |x| == |y| > 0 && AllEqual(y, c)
    ensures Slope(x, y) == 0.0
  {
    DeviationsAllEqual(y, c);
    DotZeroLeft(Deviations(y), Deviations(x));
    DotComm(Deviations(y), Deviations(x));
  }

  lemma ResidualAlgebra(yi: real, xi: real, ym: real, xm: real, b: real)
    ensures yi - ((ym - b * xm) + b * xi) == 1.0 * (yi - ym) + (-b) * (xi - xm)
  {
  }

  /** The residuals of the fitted line, in terms of the deviations. */
  lemma FittedResiduals(x: seq<real>, y: seq<real>)
    requires |x| == |y| > 0
    ensures Residuals(Intercept(x, y), Slope(x, y), x, y)
         == Lin(1.0, Deviations(y), -Slope(x, y), Deviations(x))
  {
    var b := Slope(x, y);
    var dx, dy := Deviations(x), Deviations(y);
    var e := Residuals(Intercept(x, y), b, x, y);
    var l := Lin(1.0, dy, -b, dx);
    forall i | 0 <= i < |x|
      ensures e[i] == l[i]
    {
      assert e[i] == y[i] - ((Mean(y) - b * Mean(x)) + b * x[i]);
      assert l[i] == 1.0 * dy[i] + (-b) * dx[i];
      assert dy[i] == y[i] - Mean(y) && dx[i] == x[i] - Mean(x);
      ResidualAlgebra(y[i], x[i], Mean(y), Mean(x), b);
    }
  }

  /** The fitted residuals sum to zero. */
  lemma ResidualsSumZero(x: seq<real>, y: seq<real>)
    requires |x| == |y| > 0
    ensures Sum(Residuals(Intercept(x, y), Slope(x, y), x, y)) == 0.0
  {
    var b := Slope(x, y);
    var dx, dy := Deviations(x), Deviations(y);
    FittedResiduals(x, y);
    SumLin(1.0, dy, -b, dx);
    DeviationsSumZero(x);
    DeviationsSumZero(y);
  }

  /** The fitted residuals are orthogonal to the market's deviations. */
  lemma ResidualsOrthogonalToDeviations(x: seq<real>, y: seq<real>)
    requires |x| == |y| > 0
    ensures Dot(Residuals(Intercept(x, y), Slope(x, y), x, y), Deviations(x)) == 0.0
  {
    var b := Slope(x, y);
    var dx, dy := Deviations(x), Deviations(y);
    var e := Residuals(Intercept(x, y), b, x, y);
    FittedResiduals(x, y);
    DotLin(dx, 1.0, dy, -b, dx);
    assert Dot(dx, e) == Sxy(x, y) - b * Sxx(x);
    if Sxx(x) == 0.0 {
      NoSpreadNoDeviation(x);
      DotZeroLeft(dx, dy);
    }
    DotComm(dx, e);
  }

  /** A column is its deviations shifted back by its mean. */
  lemma ColumnFromDeviations(x: seq<real>)
    requires |x| > 0
    ensures x == Lin(1.0, Deviations(x), Mean(x), Ones(|x|))
  {
    var d, l := Deviations(x), Lin(1.0, Deviations(x), Mean(x), Ones(|x|));
    forall i | 0 <= i < |x|
      ensures x[i] == l[i]
    {
      assert l[i] == 1.0 * d[i] + Mean(x) * 1.0;
    }
  }

  /** The normal equations: the fitted residuals sum to zero and are orthogonal to the market column. */
  lemma NormalEquations(x: seq<real>, y: seq<real>)
    requires |x| == |y| > 0
    ensures Sum(Residuals(Intercept(x, y), Slope(x, y), x, y)) == 0.0
    ensures Dot(Residuals(Intercept(x, y), Slope(x, y), x, y), x) == 0.0
  {
    var e := Residuals(Intercept(x, y), Slope(x, y), x, y);
    ResidualsSumZero(x, y);
    ResidualsOrthogonalToDeviations(x, y);
    ColumnFromDeviations(x);
    DotLin(e, 1.0, Deviations(x), Mean(x), Ones(|x|));
    DotOnes(e);
  }

  /** The fitted line minimises the squared error over every intercept and slope. */
  lemma OlsMinimizesSquaredError(x: seq<real>, y: seq<real>, a': real, b': real)
    requires |x| == |y| > 0
    ensures SquaredError(Intercept(x, y), Slope(x, y), x, y) <= SquaredError(a', b', x, y)
  {
    var n := |x|;
    var a, b := Intercept(x, y), Slope(x, y);
    var e := Residuals(a, b, x, y);
    var d := Lin(a - a', Ones(n), b - b', x);
    var e' := Residuals(a', b', x, y);
    var w := Lin(1.0, e, 1.0, d);
    forall i | 0 <= i < n
      ensures e'[i] == w[i]
    {
      assert w[i] == 1.0 * (y[i] - (a + b * x[i])) + 1.0 * ((a - a') * 1.0 + (b - b') * x[i]);
    }
    assert e' == w;
    DotLin(w, 1.0, e, 1.0, d);
    DotComm(w, e);
    DotComm(w, d);
    DotLin(e, 1.0, e, 1.0, d);
    DotLin(d, 1.0, e, 1.0, d);
    DotComm(d, e);
    assert Dot(e', e') == Dot(e, e) + 2.0 * Dot(e, d) + Dot(d, d);
    NormalEquations(x, y);
    DotLin(e, a - a', Ones(n), b - b', x);
    DotOnes(e);
    assert Dot(e, d) == 0.0;
    DotSelfNonneg(d);
  }
}

=== FILE: returns.dfy ===
/**
 From close prices to annual returns: `pct_change` on every price column (after
 pandas' default forward fill of missing prices), `dropna` of every row with a
 missing return, and `resample('Y')` compounding each year's daily returns.
 */
module Returns {
  import opened Options
  import opened Series

  /** One price column: the close on each row, None where the instrument has no price. */
  type PriceColumn = seq<Option<real>>

  /** The downloaded close prices: a label and a column per instrument, and the
      calendar year of each row (rows in date order). */
  datatype PriceFrame = PriceFrame(names: seq<string>, years: seq<int>, cells: seq<PriceColumn>)

  /** A table without missing values (daily or annual returns), column-major. */
  datatype Table = Table(names: seq<string>, years: seq<int>, columns: seq<seq<real>>)

  predicate WellFormed(f: PriceFrame)
  {
    |f.names| == |f.cells| && forall j :: 0 <= j < |f.cells| ==> |f.cells[j]| == |f.years|
  }

  predicate Rectangular(t: Table)
  {
    |t.names| == |t.columns| && forall j :: 0 <= j < |t.columns| ==> |t.columns[j]| == |t.years|
  }

  /** Close prices are positive wherever they are present. */
  predicate Positive(c: PriceColumn)
  {
    forall i :: 0 <= i < |c| && c[i].Some? ==> c[i].value > 0.0
  }

  predicate PositivePrices(f: PriceFrame)
  {
    forall j :: 0 <= j < |f.cells| ==> Positive(f.cells[j])
  }

  predicate Nondecreasing(s: seq<int>)
  {
    forall i, k :: 0 <= i <= k < |s| ==> s[i] <= s[k]
  }

  predicate Increasing(s: seq<int>)
  {
    forall i, k :: 0 <= i < k < |s| ==> s[i] < s[k]
  }

  /** `annual_returns.empty`: a frame is empty when it has no rows or no columns. */
  predicate Empty(t: Table)
  {
    |t.years| == 0 || |t.columns| == 0
  }

  // ---------------------------------------------------------------------------
  // Forward fill and pct_change

  /** The price on row i after padding forward: the cell itself, or else the filled price of the row before. */
  function Filled(c: PriceColumn, i: nat): (v: Option<real>)
    requires i < |c|
    ensures v.Some? ==> exists k :: 0 <= k <= i && c[k] == v
  {
    if c[i].Some? then c[i] else if i == 0 then None else Filled(c, i - 1)
  }

  /** The filled price on row i is the most recent present price at or before row i, and is missing exactly when there is none. */
  lemma {:induction false} FilledIsLatest(c: PriceColumn, i: nat)
    requires i < |c|
    ensures Filled(c, i).None? <==> forall k :: 0 <= k <= i ==> c[k].None?
    ensures Filled(c, i).Some? ==>
      exists k :: 0 <= k <= i && c[k] == Filled(c, i) && forall m :: k < m <= i ==> c[m].None?
  {
    if c[i].None? && i > 0 {
      FilledIsLatest(c, i - 1);
      if Filled(c, i).Some? {
        var k :| 0 <= k <= i - 1 && c[k] == Filled(c, i - 1) && forall m :: k < m <= i - 1 ==> c[m].None?;
        assert forall m :: k < m <= i ==> c[m].None?;
      }
    }
  }

  /** Padding keeps prices positive. */
  lemma FilledPositive(c: PriceColumn, i: nat)
    requires i < |c| && Positive(c)
    ensures Filled(c, i).Some? ==> Filled(c, i).value > 0.0
  {
  }

  /** Once a column has a price, every later row has a filled price. */
  lemma {:induction false} FilledStays(c: PriceColumn, i: nat, k: nat)
    requires i <= k < |c| && Filled(c, i).Some?
    ensures Filled(c, k).Some?
  {
    if i < k {
      FilledStays(c, i, k - 1);
    }
  }

  /** The return x on row i takes the filled price of row i − 1 to the filled price of row i. */
  predicate Grows(c: PriceColumn, i: nat, x: real)
  {
    1 <= i < |c| && Filled(c, i - 1).Some? && Filled(c, i).Some?
    && Filled(c, i - 1).value * (1.0 + x) == Filled(c, i).value
  }

  /** The simple return of row i against row i−1 of the filled prices, when both exist. */
  function Change(c: PriceColumn, i: nat): (r: Option<real>)
    requires i < |c| && Positive(c)
    ensures r.Some? <==> i > 0 && Filled(c, i - 1).Some?
    ensures r.Some? ==> Grows(c, i, r.value)
  {
    if i == 0 || Filled(c, i - 1).None? then None
    else
      FilledStays(c, i - 1, i);
      FilledPositive(c, i - 1);
      ChangeIdentity(Filled(c, i - 1).value, Filled(c, i).value);
      Some(Filled(c, i).value / Filled(c, i - 1).value - 1.0)
  }

  lemma ChangeIdentity(p: real, q: real)
    requires p > 0.0
    ensures p * (1.0 + (q / p - 1.0)) == q
  {
  }

  /** `pct_change` of one price column. */
  function PctChange(c: PriceColumn): (r: PriceColumn)
    requires Positive(c)
    ensures |r| == |c|
  {
    seq(|c|, i requires 0 <= i < |c| => Change(c, i))
  }

  /** The returns that pct_change yields: none up to the first price; for a present price,
      its ratio to the latest earlier price minus one (p[i]/p[i−1] − 1 between two present
      prices); 0 where a missing price was padded. */
  lemma PctChangeCases(c: PriceColumn, i: nat)
    requires Positive(c) && i < |c|
    ensures PctChange(c)[i].None? <==> forall k :: 0 <= k < i ==> c[k].None?
    ensures i > 0 && c[i - 1].Some? && c[i].Some? ==>
      PctChange(c)[i] == Some(c[i].value / c[i - 1].value - 1.0)
    ensures i > 0 && c[i].None? && PctChange(c)[i].Some? ==> PctChange(c)[i] == Some(0.0)
    ensures i > 0 && c[i].Some? && PctChange(c)[i].Some? ==>
      PctChange(c)[i] == Some(c[i].value / Filled(c, i - 1).value - 1.0)
  {
    if i > 0 {
      FilledIsLatest(c, i - 1);
      if c[i].None? && PctChange(c)[i].Some? {
        FilledPositive(c, i - 1);
      }
    }
  }

  /** A column that has started keeps having returns. */
  lemma PctChangeStays(c: PriceColumn, i: nat, k: nat)
    requires Positive(c) && 0 < i <= k < |c| && PctChange(c)[i].Some?
    ensures PctChange(c)[k].Some?
  {
    FilledStays(c, i - 1, k - 1);
  }

  // ---------------------------------------------------------------------------
  // dropna

  predicate SameLength(cols: seq<PriceColumn>, n: nat)
  {
    forall j :: 0 <= j < |cols| ==> |cols[j]| == n
  }

  /** Row i has a value in every column. */
  predicate RowComplete(cols: seq<PriceColumn>, i: nat)
    requires forall j :: 0 <= j < |cols| ==> i < |cols[j]|
  {
    forall j :: 0 <= j < |cols| ==> cols[j][i].Some?
  }

  /** The complete rows at or after `from`, in order. */
  function Kept(cols: seq<PriceColumn>, n: nat, from: nat): (ks: seq<nat>)
    requires SameLength(cols, n) && from <= n
    ensures forall k :: 0 <= k < |ks| ==> from <= ks[k] < n
    ensures forall k, l :: 0 <= k < l < |ks| ==> ks[k] < ks[l]
    ensures forall i :: from <= i < n ==> (i in ks <==> RowComplete(cols, i))
    decreases n - from
  {
    if from == n then []
    else (if RowComplete(cols, from) then [from] else []) + Kept(cols, n, from + 1)
  }

  /** `dropna`: the table of the complete rows. */
  function DropIncomplete(names: seq<string>, years: seq<int>, cols: seq<PriceColumn>): (t: Table)
    requires SameLength(cols, |years|)
    ensures |t.columns| == |cols| && |t.names| == |names| && |t.years| <= |years|
    ensures forall j :: 0 <= j < |cols| ==> |t.columns[j]| == |t.years|
  {
    var ks := Kept(cols, |years|, 0);
    KeptLength(cols, |years|, 0);
    Table(names, seq(|ks|, k requires 0 <= k < |ks| => years[ks[k]]),
      seq(|cols|, j requires 0 <= j < |cols| =>
        seq(|ks|, k requires 0 <= k < |ks| => assert ks[k] in ks; cols[j][ks[k]].value)))
  }

  /** Row k of the dropped table is the k-th complete row: its year, and in every column
      that row's price, which is present; the labels stay as they were. */
  lemma DroppedRows(names: seq<string>, years: seq<int>, cols: seq<PriceColumn>)
    requires SameLength(cols, |years|)
    ensures var t, ks := DropIncomplete(names, years, cols), Kept(cols, |years|, 0);
      && t.names == names
      && |t.years| == |ks|
      && (forall k :: 0 <= k < |ks| ==> t.years[k] == years[ks[k]])
      && forall j, k :: 0 <= j < |cols| && 0 <= k < |ks| ==>
           cols[j][ks[k]].Some? && t.columns[j][k] == cols[j][ks[k]].value
  {
    var ks := Kept(cols, |years|, 0);
    assert forall k :: 0 <= k < |ks| ==> ks[k] in ks;
  }

  lemma {:induction false} KeptLength(cols: seq<PriceColumn>, n: nat, from: nat)
    requires SameLength(cols, n) && from <= n
    ensures |Kept(cols, n, from)| <= n - from
    decreases n - from
  {
    if from < n {
      KeptLength(cols, n, from + 1);
    }
  }

  /** When completeness, once reached, persists, the kept rows are one contiguous stretch ending at the last row. */
  lemma {:induction false} KeptContiguous(cols: seq<PriceColumn>, n: nat, from: nat)
    requires SameLength(cols, n) && from <= n
    requires forall i, k :: from <= i <= k < n && RowComplete(cols, i) ==> RowComplete(cols, k)
    ensures forall k :: 0 <= k < |Kept(cols, n, from)| ==> Kept(cols, n, from)[k] == n - |Kept(cols, n, from)| + k
    decreases n - from
  {
    if from < n {
      KeptContiguous(cols, n, from + 1);
      if RowComplete(cols, from) {
        KeptFromComplete(cols, n, from);
      }
    }
  }

  /** From a complete row on, with completeness persisting, every row is kept. */
  lemma KeptFromComplete(cols: seq<PriceColumn>, n: nat, from: nat)
    requires SameLength(cols, n) && from < n && RowComplete(cols, from)
    requires forall i, k :: from <= i <= k < n && RowComplete(cols, i) ==> RowComplete(cols, k)
    ensures forall k :: 0 <= k < |Kept(cols, n, from)| ==> Kept(cols, n, from)[k] == n - |Kept(cols, n, from)| + k
  {
    KeptFull(cols, n, from);
    KeptAll(cols, n, from);
  }

  /** A strictly increasing run of n − from indices inside [from, n) is from, from + 1, …. */
  lemma KeptAll(cols: seq<PriceColumn>, n: nat, from: nat)
    requires SameLength(cols, n) && from <= n && |Kept(cols, n, from)| == n - from
    ensures forall k :: 0 <= k < |Kept(cols, n, from)| ==> Kept(cols, n, from)[k] == from + k
  {
    FillsRange(Kept(cols, n, from), from, n);
  }

  lemma {:induction false} FillsRange(ks: seq<nat>, from: nat, n: nat)
    requires from <= n && |ks| == n - from
    requires forall k :: 0 <= k < |ks| ==> from <= ks[k] < n
    requires forall k, l :: 0 <= k < l < |ks| ==> ks[k] < ks[l]
    ensures forall k :: 0 <= k < |ks| ==> ks[k] == from + k
    decreases |ks|
  {
    if |ks| > 0 {
      var init := ks[..|ks| - 1];
      forall k | 0 <= k < |init|
        ensures init[k] < n - 1
      {
        assert ks[k] < ks[|ks| - 1];
      }
      FillsRange(init, from, n - 1);
      if |ks| > 1 {
        assert ks[|ks| - 2] == from + |ks| - 2;
      }
    }
  }

  /** When every row from `from` on is complete, all of them are kept. */
  lemma KeptFull(cols: seq<PriceColumn>, n: nat, from: nat)
    requires SameLength(cols, n) && from <= n
    requires forall i :: from <= i < n ==> RowComplete(cols, i)
    ensures |Kept(cols, n, from)| == n - from
  {
    var ks := Kept(cols, n, from);
    KeptLength(cols, n, from);
    KeptCoversRange(ks, from, n);
  }

  /** A strictly increasing sequence inside [from, n) that contains every index of it has length n − from. */
  lemma {:induction false} KeptCoversRange(ks: seq<nat>, from: nat, n: nat)
    requires from <= n && |ks| <= n - from
    requires forall k :: 0 <= k < |ks| ==> from <= ks[k] < n
    requires forall k, l :: 0 <= k < l < |ks| ==> ks[k] < ks[l]
    requires forall i :: from <= i < n ==> i in ks
    ensures |ks| == n - from
    decreases n - from
  {
    if from < n {
      assert n - 1 in ks;
      var k :| 0 <= k < |ks| && ks[k] == n - 1;
      var last := |ks| - 1;
      assert ks[k] <= ks[last];
      assert ks[last] == n - 1;
      var init := ks[..last];
      forall i | from <= i < n - 1
        ensures i in init
      {
        assert i in ks;
        var l :| 0 <= l < |ks| && ks[l] == i;
        assert l != last;
      }
      forall l | 0 <= l < |init|
        ensures init[l] < n - 1
      {
        assert ks[l] < ks[last];
      }
      KeptCoversRange(init, from, n - 1);
    }
  }

  // ---------------------------------------------------------------------------
  // Daily returns

  /** `data.pct_change()`: every price column turned into returns. */
  function ChangeColumns(f: PriceFrame): (cols: seq<PriceColumn>)
    requires WellFormed(f) && PositivePrices(f)
    ensures |cols| == |f.cells| && SameLength(cols, |f.years|)
  {
    seq(|f.cells|, j requires 0 <= j < |f.cells| => PctChange(f.cells[j]))
  }

  /** `data.pct_change().dropna()`: the daily returns table. */
  function DailyReturns(f: PriceFrame): (t: Table)
    requires WellFormed(f) && PositivePrices(f)
    ensures Rectangular(t) && t.names == f.names && |t.years| <= |f.years|
  {
    DropIncomplete(f.names, f.years, ChangeColumns(f))
  }

  /** Every column's returns, once started, continue; the first row never has one. */
  lemma CompleteRowsPersist(f: PriceFrame, i: nat, k: nat)
    requires WellFormed(f) && PositivePrices(f) && |f.cells| > 0
    requires i <= k < |f.years| && RowComplete(ChangeColumns(f), i)
    ensures i > 0 && RowComplete(ChangeColumns(f), k)
  {
    var cols: seq<PriceColumn> := ChangeColumns(f);
    assert cols[0][i].Some?;
    forall j | 0 <= j < |cols|
      ensures cols[j][k].Some?
    {
      assert cols[j][i].Some?;
      PctChangeStays(f.cells[j], i, k);
    }
  }

  /** The rows dropna keeps are the last |t| rows of the frame, and never the first. */
  lemma DailyKept(f: PriceFrame)
    requires WellFormed(f) && PositivePrices(f) && |f.cells| > 0
    ensures var ks := Kept(ChangeColumns(f), |f.years|, 0);
      forall k :: 0 <= k < |ks| ==> ks[k] == |f.years| - |ks| + k && ks[k] >= 1
  {
    var cols: seq<PriceColumn> := ChangeColumns(f);
    var n := |f.years|;
    forall i, k | 0 <= i <= k < n && RowComplete(cols, i)
      ensures RowComplete(cols, k)
    {
      CompleteRowsPersist(f, i, k);
    }
    KeptContiguous(cols, n, 0);
    var ks := Kept(cols, n, 0);
    forall k | 0 <= k < |ks|
      ensures ks[k] >= 1
    {
      assert ks[k] in ks;
      CompleteRowsPersist(f, ks[k], ks[k]);
    }
  }

  /** t holds the returns of rows m .. m+|t|−1 of f: same years, and each return takes
      the filled price of the row before to the filled price of its own row. */
  predicate ReturnsOfRows(f: PriceFrame, t: Table, m: nat)
  {
    Rectangular(t) && |t.columns| == |f.cells| && m + |t.years| == |f.years|
    && (forall k :: 0 <= k < |t.years| ==> t.years[k] == f.years[m + k])
    && (forall j, k :: 0 <= j < |f.cells| && 0 <= k < |t.years| ==> Grows(f.cells[j], m + k, t.columns[j][k]))
  }

  /** The daily returns are the last rows of the price frame (never its first row, which
      has no return), each taking the filled price of the row before to its own. */
  lemma DailyWindow(f: PriceFrame)
    requires WellFormed(f) && PositivePrices(f) && |f.cells| > 0
    ensures ReturnsOfRows(f, DailyReturns(f), |f.years| - |DailyReturns(f).years|)
  {
    var cols: seq<PriceColumn> := ChangeColumns(f);
    var t := DailyReturns(f);
    var ks := Kept(cols, |f.years|, 0);
    var m := |f.years| - |t.years|;
    assert t == DropIncomplete(f.names, f.years, cols);
    DailyKept(f);
    DroppedRows(f.names, f.years, cols);
    assert forall k :: 0 <= k < |t.years| ==> ks[k] == m + k;
    assert forall k :: 0 <= k < |t.years| ==> t.years[k] == f.years[m + k];
    forall j, k | 0 <= j < |f.cells| && 0 <= k < |t.years|
      ensures Grows(f.cells[j], m + k, t.columns[j][k])
    {
      DailyCell(f, j, k, ks[k]);
    }
    assert Rectangular(t) && |t.columns| == |cols| == |f.cells|;
    assert ReturnsOfRows(f, t, m);
  }

  /** Every price of the frame is present. */
  predicate CompleteFrame(f: PriceFrame)
    requires WellFormed(f)
  {
    forall j, i :: 0 <= j < |f.cells| && 0 <= i < |f.years| ==> f.cells[j][i].Some?
  }

  /** With every price present, dropna removes only the first row, and each daily
      return is p[i+1]/p[i] − 1: one return fewer than prices. */
  lemma DailyOfCompleteFrame(f: PriceFrame)
    requires WellFormed(f) && PositivePrices(f) && |f.cells| > 0 && |f.years| > 0 && CompleteFrame(f)
    ensures |DailyReturns(f).years| == |f.years| - 1
    ensures forall j, k :: 0 <= j < |f.cells| && 0 <= k < |f.years| - 1 ==>
      DailyReturns(f).columns[j][k] == f.cells[j][k + 1].value / f.cells[j][k].value - 1.0
  {
    CompleteFrameKeepsAllButFirst(f);
    DailyWindow(f);
    SimpleReturnsOfRows(f, DailyReturns(f));
  }

  lemma CompleteFrameKeepsAllButFirst(f: PriceFrame)
    requires WellFormed(f) && PositivePrices(f) && |f.cells| > 0 && |f.years| > 0 && CompleteFrame(f)
    ensures |DailyReturns(f).years| == |f.years| - 1
  {
    var cols: seq<PriceColumn> := ChangeColumns(f);
    var n := |f.years|;
    forall i | 1 <= i < n
      ensures RowComplete(cols, i)
    {
      forall j | 0 <= j < |cols|
        ensures cols[j][i].Some?
      {
        assert f.cells[j][i - 1].Some?;
        assert Filled(f.cells[j], i - 1).Some?;
        assert cols[j][i] == Change(f.cells[j], i);
      }
    }
    assert cols[0][0] == Change(f.cells[0], 0);
    assert Kept(cols, n, 0) == Kept(cols, n, 1);
    KeptFull(cols, n, 1);
  }

  lemma SimpleReturnsOfRows(f: PriceFrame, t: Table)
    requires WellFormed(f) && PositivePrices(f) && CompleteFrame(f) && ReturnsOfRows(f, t, 1)
    ensures forall j, k :: 0 <= j < |f.cells| && 0 <= k < |t.years| ==>
      t.columns[j][k] == f.cells[j][k + 1].value / f.cells[j][k].value - 1.0
  {
    forall j, k | 0 <= j < |f.cells| && 0 <= k < |t.years|
      ensures t.columns[j][k] == f.cells[j][k + 1].value / f.cells[j][k].value - 1.0
    {
      assert Grows(f.cells[j], 1 + k, t.columns[j][k]);
      assert Filled(f.cells[j], k) == f.cells[j][k];
      assert Filled(f.cells[j], k + 1) == f.cells[j][k + 1];
      ReturnOfGrowth(f.cells[j][k].value, f.cells[j][k + 1].value, t.columns[j][k]);
    }
  }

  lemma ReturnOfGrowth(p: real, q: real, x: real)
    requires p > 0.0 && p * (1.0 + x) == q
    ensures x == q / p - 1.0
  {
    var a := q / p - (1.0 + x);
    assert a * p == q - (1.0 + x) * p;
    if a > 0.0 {
      MulPositive(a, p);
    } else if a < 0.0 {
      MulPositive(-a, p);
    }
  }

  lemma DailyCell(f: PriceFrame, j: nat, k: nat, i: nat)
    requires WellFormed(f) && PositivePrices(f) && j < |f.cells|
    requires k < |Kept(ChangeColumns(f), |f.years|, 0)|
    requires i == Kept(ChangeColumns(f), |f.years|, 0)[k]
    ensures Grows(f.cells[j], i, DailyReturns(f).columns[j][k])
  {
    DailyValue(f, j, k, i);
    var c := f.cells[j];
    assert ChangeColumns(f)[j] == PctChange(c);
    assert ChangeColumns(f)[j][i] == Change(c, i);
  }

  /** A daily return is the pct_change value on the kept row it comes from. */
  lemma DailyValue(f: PriceFrame, j: nat, k: nat, i: nat)
    requires WellFormed(f) && PositivePrices(f) && j < |f.cells|
    requires k < |Kept(ChangeColumns(f), |f.years|, 0)|
    requires i == Kept(ChangeColumns(f), |f.years|, 0)[k]
    ensures ChangeColumns(f)[j][i].Some? && DailyReturns(f).columns[j][k] == ChangeColumns(f)[j][i].value
  {
    var cols: seq<PriceColumn> := ChangeColumns(f);
    var ks := Kept(cols, |f.years|, 0);
    assert i in ks;
    var t := DropIncomplete(f.names, f.years, cols);
    assert t == DailyReturns(f);
  }

  /** Between rows a and b the filled price grows by the factor g. */
  predicate GrowsOver(c: PriceColumn, a: nat, b: nat, g: real)
  {
    a <= b < |c| && Filled(c, a).Some? && Filled(c, b).Some? && Filled(c, a).value * g == Filled(c, b).value
  }

  /** Compounding consecutive daily returns telescopes: the growth of the returns for
      rows m+s .. m+e−1 is the ratio of the filled price on row m+e−1 to the one on row m+s−1. */
  lemma {:induction false} Telescope(c: PriceColumn, d: seq<real>, m: nat, s: nat, e: nat)
    requires m >= 1 && forall k :: 0 <= k < |d| ==> Grows(c, m + k, d[k])
    requires s < e <= |d|
    ensures GrowsOver(c, m + s - 1, m + e - 1, 1.0 + Compound(d[s..e]))
  {
    if e == s + 1 {
      assert Grows(c, m + s, d[s]);
      assert d[s..e] == [d[s]];
      CompoundSingle(d[s]);
    } else {
      Telescope(c, d, m, s, e - 1);
      assert Grows(c, m + e - 1, d[e - 1]);
      TelescopeStep(c, d, m + s - 1, m + e - 1, s, e);
    }
  }

  /** Growth up to row b − 1 and then one more day gives the growth up to row b. */
  lemma TelescopeStep(c: PriceColumn, d: seq<real>, a: nat, b: nat, s: nat, e: nat)
    requires s < e - 1 && e <= |d| && a < b
    requires GrowsOver(c, a, b - 1, 1.0 + Compound(d[s..e - 1])) && Grows(c, b, d[e - 1])
    ensures GrowsOver(c, a, b, 1.0 + Compound(d[s..e]))
  {
    var g, h := 1.0 + Compound(d[s..e - 1]), 1.0 + d[e - 1];
    CompoundSingle(d[e - 1]);
    GrowthOfAppend(d[s..e - 1], [d[e - 1]], g, h);
    assert d[s..e] == d[s..e - 1] + [d[e - 1]];
    GrowthChain(Filled(c, a).value, Filled(c, b - 1).value, Filled(c, b).value, g, h, 1.0 + Compound(d[s..e]));
  }

  /** Growing by g and then by h is growing by their product gh. */
  lemma GrowthChain(p: real, q: real, r: real, g: real, h: real, gh: real)
    requires p * g == q && q * h == r && gh == g * h
    ensures p * gh == r
  {
    assert p * (g * h) == (p * g) * h;
  }

  /** The growth factors of two consecutive stretches multiply. */
  lemma GrowthOfAppend(a: seq<real>, b: seq<real>, g: real, h: real)
    requires 1.0 + Compound(a) == g && 1.0 + Compound(b) == h
    ensures 1.0 + Compound(a + b) == g * h
  {
    CompoundAppend(a, b);
  }

  // ---------------------------------------------------------------------------
  // resample('Y')

  /** Rows start .. end−1 of a table. */
  datatype Span = Span(start: nat, end: nat)

  /** The end of the run of rows that share the year of row s. */
  function RunEnd(years: seq<int>, s: nat): (e: nat)
    requires s < |years|
    ensures s < e <= |years|
    ensures forall i :: s <= i < e ==> years[i] == years[s]
    ensures e < |years| ==> years[e] != years[s]
    decreases |years| - s
  {
    if s + 1 == |years| || years[s + 1] != years[s] then s + 1 else RunEnd(years, s + 1)
  }

  /** The groups of `resample('Y')` from row s on: maximal runs of rows with one year,
      one after the other, covering rows s .. n−1. */
  function Runs(years: seq<int>, s: nat): (spans: seq<Span>)
    requires s <= |years|
    ensures |spans| == 0 <==> s == |years|
    ensures |spans| > 0 ==> spans[0].start == s && spans[|spans| - 1].end == |years|
    ensures forall k :: 0 <= k < |spans| ==> s <= spans[k].start < spans[k].end <= |years|
    ensures forall k :: 0 <= k < |spans| - 1 ==> spans[k].end == spans[k + 1].start
    ensures forall k, i :: 0 <= k < |spans| && spans[k].start <= i < spans[k].end ==> years[i] == years[spans[k].start]
    ensures forall k :: 0 <= k < |spans| - 1 ==> years[spans[k + 1].start] != years[spans[k].start]
    decreases |years| - s
  {
    if s == |years| then []
    else
      var e := RunEnd(years, s);
      [Span(s, e)] + Runs(years, e)
  }

  /** The compounded return of every group, for one column. */
  function AnnualColumn(col: seq<real>, spans: seq<Span>): (a: seq<real>)
    requires forall k :: 0 <= k < |spans| ==> spans[k].start <= spans[k].end <= |col|
    ensures |a| == |spans|
  {
    seq(|spans|, k requires 0 <= k < |spans| => Compound(col[spans[k].start..spans[k].end]))
  }

  /** `returns.resample('Y').apply(lambda x: (x + 1).prod() - 1)`: one row per year. */
  function AnnualReturns(t: Table): (a: Table)
    requires Rectangular(t)
    ensures Rectangular(a) && a.names == t.names
    ensures |a.years| <= |t.years| && (|a.years| == 0 <==> |t.years| == 0)
    ensures Empty(a) <==> Empty(t)
  {
    var spans := Runs(t.years, 0);
    RunsLength(t.years, 0);
    Table(t.names, seq(|spans|, k requires 0 <= k < |spans| => t.years[spans[k].start]),
      seq(|t.columns|, j requires 0 <= j < |t.columns| => AnnualColumn(t.columns[j], spans)))
  }

  lemma {:induction false} RunsLength(years: seq<int>, s: nat)
    requires s <= |years|
    ensures |Runs(years, s)| <= |years| - s
    decreases |years| - s
  {
    if s < |years| {
      RunsLength(years, RunEnd(years, s));
    }
  }

  /** On dates in order, the annual rows carry strictly increasing years. */
  lemma AnnualYearsIncreasing(t: Table)
    requires Rectangular(t) && Nondecreasing(t.years)
    ensures Increasing(AnnualReturns(t).years)
  {
    var spans := Runs(t.years, 0);
    var ys := AnnualReturns(t).years;
    forall k | 0 <= k < |spans| - 1
      ensures ys[k] < ys[k + 1]
    {
      assert t.years[spans[k].end - 1] == ys[k];
      assert t.years[spans[k].end - 1] <= t.years[spans[k + 1].start];
    }
    AdjacentIncreasing(ys);
  }

  lemma {:induction false} AdjacentIncreasing(s: seq<int>)
    requires forall k :: 0 <= k < |s| - 1 ==> s[k] < s[k + 1]
    ensures Increasing(s)
  {
    if |s| > 1 {
      AdjacentIncreasing(s[1..]);
      assert forall k :: 1 <= k < |s| ==> s[0] < s[k] by {
        forall k | 1 <= k < |s|
          ensures s[0] < s[k]
        {
          assert s[0] < s[1];
          if k > 1 {
            assert s[1..][0] < s[1..][k - 1];
          }
        }
      }
    }
  }

  /** Every year of the daily rows has its annual row, and every annual row is such a year. */
  lemma AnnualYearsCover(t: Table)
    requires Rectangular(t)
    ensures forall i :: 0 <= i < |t.years| ==> t.years[i] in AnnualReturns(t).years
    ensures forall y :: y in AnnualReturns(t).years ==> y in t.years
  {
    var spans := Runs(t.years, 0);
    var ys := AnnualReturns(t).years;
    forall i | 0 <= i < |t.years|
      ensures t.years[i] in ys
    {
      var k := SpanOf(spans, |t.years|, i);
      assert t.years[i] == ys[k];
    }
  }

  /** The group that holds row i. */
  lemma {:induction false} SpanOf(spans: seq<Span>, n: nat, i: nat) returns (k: nat)
    requires |spans| > 0 && spans[0].start <= i < spans[|spans| - 1].end
    requires forall k :: 0 <= k < |spans| - 1 ==> spans[k].end == spans[k + 1].start
    ensures k < |spans| && spans[k].start <= i < spans[k].end
  {
    if i < spans[0].end || |spans| == 1 {
      k := 0;
    } else {
      var k' := SpanOf(spans[1..], n, i);
      k := k' + 1;
    }
  }

  /** Annualising keeps the growth over the whole window: compounding the annual
      returns gives the same total return as compounding the daily ones. */
  lemma AnnualKeepsGrowth(t: Table, j: nat)
    requires Rectangular(t) && j < |t.columns|
    ensures Compound(AnnualReturns(t).columns[j]) == Compound(t.columns[j])
  {
    RunsGrowth(t.columns[j], t.years, 0);
    assert t.columns[j][0..] == t.columns[j];
  }

  lemma {:induction false} RunsGrowth(col: seq<real>, years: seq<int>, s: nat)
    requires |col| == |years| && s <= |years|
    ensures Compound(AnnualColumn(col, Runs(years, s))) == Compound(col[s..])
    decreases |years| - s
  {
    if s == |years| {
      assert col[s..] == [];
      assert AnnualColumn(col, Runs(years, s)) == [];
    } else {
      var e := RunEnd(years, s);
      var rest := AnnualColumn(col, Runs(years, e));
      var first := Compound(col[s..e]);
      RunsGrowth(col, years, e);
      AnnualColumnCons(col, Span(s, e), Runs(years, e));
      var g, h := 1.0 + first, 1.0 + Compound(col[e..]);
      CompoundSingle(first);
      GrowthOfAppend([first], rest, g, h);
      GrowthOfAppend(col[s..e], col[e..], g, h);
      assert col[s..] == col[s..e] + col[e..];
    }
  }

  lemma AnnualColumnCons(col: seq<real>, sp: Span, rest: seq<Span>)
    requires sp.start <= sp.end <= |col|
    requires forall k :: 0 <= k < |rest| ==> rest[k].start <= rest[k].end <= |col|
    ensures AnnualColumn(col, [sp] + rest) == [Compound(col[sp.start..sp.end])] + AnnualColumn(col, rest)
  {
    var l, r := AnnualColumn(col, [sp] + rest), [Compound(col[sp.start..sp.end])] + AnnualColumn(col, rest);
    forall k | 0 <= k < |l|
      ensures l[k] == r[k]
    {
      if k > 0 {
        assert ([sp] + rest)[k] == rest[k - 1];
      }
    }
  }

  /** Years whose daily returns are all zero have annual return zero. */
  lemma AnnualOfFlatDays(t: Table, j: nat)
    requires Rectangular(t) && j < |t.columns| && AllEqual(t.columns[j], 0.0)
    ensures AllEqual(AnnualReturns(t).columns[j], 0.0)
  {
    var spans := Runs(t.years, 0);
    var col := t.columns[j];
    forall k | 0 <= k < |spans|
      ensures Compound(col[spans[k].start..spans[k].end]) == 0.0
    {
      CompoundAllZero(col[spans[k].start..spans[k].end]);
    }
  }

  /** An annual cell is the compounded return of its group of daily rows. */
  lemma AnnualCell(t: Table, j: nat, k: nat)
    requires Rectangular(t) && j < |t.columns| && k < |AnnualReturns(t).years|
    ensures var sp := Runs(t.years, 0)[k];
      sp.start < sp.end <= |t.years|
      && AnnualReturns(t).years[k] == t.years[sp.start]
      && AnnualReturns(t).columns[j][k] == Compound(t.columns[j][sp.start..sp.end])
  {
  }

  /** Rows a .. b−1 of f are in year y and the row after them is not. */
  predicate YearOfRows(f: PriceFrame, a: nat, b: nat, y: int)
  {
    1 <= a < b <= |f.years|
    && (forall i :: a <= i < b ==> f.years[i] == y)
    && (b < |f.years| ==> f.years[b] != y)
  }

  /** Annual row k of the returns t, which sit on rows m .. of f, covers exactly the rows
      of its year, and its return is the growth of the filled price of column j from the
      row just before the year's first return to the year's last row. */
  predicate AnnualRowIsGrowth(f: PriceFrame, t: Table, m: nat, j: nat, k: nat)
    requires Rectangular(t) && j < |t.columns| && j < |f.cells| && k < |AnnualReturns(t).years|
  {
    var sp := Runs(t.years, 0)[k];
    YearOfRows(f, m + sp.start, m + sp.end, AnnualReturns(t).years[k])
    && GrowsOver(f.cells[j], m + sp.start - 1, m + sp.end - 1, 1.0 + AnnualReturns(t).columns[j][k])
  }

  /** Each annual return is the ratio of two filled prices minus one: the price on the
      year's last row over the price on the row just before the year's first return. */
  lemma AnnualAsPriceRatio(f: PriceFrame, j: nat, k: nat)
    requires WellFormed(f) && PositivePrices(f) && j < |f.cells|
    requires k < |AnnualReturns(DailyReturns(f)).years|
    ensures AnnualRowIsGrowth(f, DailyReturns(f), |f.years| - |DailyReturns(f).years|, j, k)
  {
    DailyWindow(f);
    AnnualOfRows(f, DailyReturns(f), |f.years| - |DailyReturns(f).years|, j, k);
  }

  lemma AnnualOfRows(f: PriceFrame, t: Table, m: nat, j: nat, k: nat)
    requires ReturnsOfRows(f, t, m) && j < |f.cells| && k < |AnnualReturns(t).years|
    ensures AnnualRowIsGrowth(f, t, m, j, k)
  {
    ColumnGrows(f, t, m, j);
    AnnualRowYear(f, t, m, k);
    AnnualRowGrowth(f, t, m, j, k);
  }

  /** Column j of t holds the returns of rows m .. of the prices in column j of f. */
  lemma ColumnGrows(f: PriceFrame, t: Table, m: nat, j: nat)
    requires ReturnsOfRows(f, t, m) && j < |f.cells|
    ensures |t.columns[j]| == |t.years|
    ensures forall k :: 0 <= k < |t.columns[j]| ==> Grows(f.cells[j], m + k, t.columns[j][k])
    ensures |t.years| > 0 ==> m >= 1
  {
    if |t.years| > 0 {
      assert Grows(f.cells[j], m + 0, t.columns[j][0]);
    }
  }

  lemma AnnualRowGrowth(f: PriceFrame, t: Table, m: nat, j: nat, k: nat)
    requires Rectangular(t) && m >= 1 && j < |t.columns| && j < |f.cells| && k < |AnnualReturns(t).years|
    requires forall i :: 0 <= i < |t.columns[j]| ==> Grows(f.cells[j], m + i, t.columns[j][i])
    ensures var sp := Runs(t.years, 0)[k];
      GrowsOver(f.cells[j], m + sp.start - 1, m + sp.end - 1, 1.0 + AnnualReturns(t).columns[j][k])
  {
    var sp := Runs(t.years, 0)[k];
    AnnualCell(t, j, k);
    var d := t.columns[j];
    assert |d| == |t.years|;
    Telescope(f.cells[j], d, m, sp.start, sp.end);
    var g, h := 1.0 + Compound(d[sp.start..sp.end]), 1.0 + AnnualReturns(t).columns[j][k];
    assert g == h;
    GrowsOverSame(f.cells[j], m + sp.start - 1, m + sp.end - 1, g, h);
  }

  lemma GrowsOverSame(c: PriceColumn, a: nat, b: nat, g: real, h: real)
    requires GrowsOver(c, a, b, g) && g == h
    ensures GrowsOver(c, a, b, h)
  {
  }

  lemma AnnualRowYear(f: PriceFrame, t: Table, m: nat, k: nat)
    requires ReturnsOfRows(f, t, m) && (|t.years| > 0 ==> m >= 1) && k < |AnnualReturns(t).years|
    ensures var sp := Runs(t.years, 0)[k];
      YearOfRows(f, m + sp.start, m + sp.end, AnnualReturns(t).years[k])
  {
    var sp := Runs(t.years, 0)[k];
    var y := AnnualReturns(t).years[k];
    SpanFacts(t.years, k);
    forall i | m + sp.start <= i < m + sp.end
      ensures f.years[i] == y
    {
      assert t.years[i - m] == t.years[sp.start];
    }
    if m + sp.end < |f.years| {
      assert t.years[sp.end] == f.years[m + sp.end];
    }
  }

  /** Group k of the years: a nonempty run of one year, followed by a different year or by the end. */
  lemma SpanFacts(years: seq<int>, k: nat)
    requires k < |Runs(years, 0)|
    ensures var sp := Runs(years, 0)[k];
      && sp.start < sp.end <= |years|
      && (forall i :: sp.start <= i < sp.end ==> years[i] == years[sp.start])
      && (sp.end < |years| ==> years[sp.end] != years[sp.start])
  {
    var spans := Runs(years, 0);
    if spans[k].end < |years| {
      assert k != |spans| - 1;
      assert spans[k + 1].start == spans[k].end;
    }
  }

  /** Prices that never move give annual return zero in every year. */
  lemma AnnualOfConstantPrices(f: PriceFrame, j: nat, p: real)
    requires WellFormed(f) && PositivePrices(f) && j < |f.cells|
    requires forall i :: 0 <= i < |f.years| ==> f.cells[j][i] == Some(p)
    ensures AllEqual(AnnualReturns(DailyReturns(f)).columns[j], 0.0)
  {
    var t := DailyReturns(f);
    var m := |f.years| - |t.years|;
    DailyWindow(f);
    var d := t.columns[j];
    forall k | 0 <= k < |d|
      ensures d[k] == 0.0
    {
      assert Grows(f.cells[j], m + k, d[k]);
      assert f.cells[j][m + k - 1] == Some(p) && f.cells[j][m + k] == Some(p);
      FlatGrowth(p, d[k]);
    }
    AnnualOfFlatDays(t, j);
  }

  lemma FlatGrowth(p: real, x: real)
    requires p > 0.0 && p * (1.0 + x) == p
    ensures x == 0.0
  {
    assert p * x == 0.0;
  }
}

=== FILE: series.dfy ===
/**
 Sums, products and inner products over columns of exact reals, and the
 algebraic laws about them that the statistics, the regression and the
 compounding of returns rest on.
 */
module Series {

  /** True when every entry of `s` equals `c`. */
  predicate AllEqual(s: seq<real>, c: real)
  {
    forall i :: 0 <= i < |s| ==> s[i] == c
  }

  function Sum(s: seq<real>): real
  {
    if |s| == 0 then 0.0 else s[0] + Sum(s[1..])
  }

  function Product(s: seq<real>): real
  {
    if |s| == 0 then 1.0 else s[0] * Product(s[1..])
  }

  function Power(x: real, n: nat): real
  {
    if n == 0 then 1.0 else x * Power(x, n - 1)
  }

  /** Arithmetic mean, as pandas `mean` over a column without missing values. */
  function Mean(s: seq<real>): real
    requires |s| > 0
  {
    Sum(s) / |s| as real
  }

  /** Holding-period returns: one plus each period's simple return. */
  function Hpr(r: seq<real>): (h: seq<real>)
    ensures |h| == |r|
  {
    seq(|r|, i requires 0 <= i < |r| => r[i] + 1.0)
  }

  /** The compounded return of consecutive periods, Π(1 + r) − 1. */
  function Compound(r: seq<real>): real
  {
    Product(Hpr(r)) - 1.0
  }

  function Ones(n: nat): (s: seq<real>)
    ensures |s| == n && AllEqual(s, 1.0)
  {
    seq(n, _ => 1.0)
  }

  /** The pointwise linear combination a·u + b·v. */
  function Lin(a: real, u: seq<real>, b: real, v: seq<real>): (w: seq<real>)
    requires |u| == |v|
    ensures |w| == |u|
  {
    seq(|u|, i requires 0 <= i < |u| => a * u[i] + b * v[i])
  }

  function Dot(u: seq<real>, v: seq<real>): real
    requires |u| == |v|
  {
    if |u| == 0 then 0.0 else u[0] * v[0] + Dot(u[1..], v[1..])
  }

  /** Each entry minus the mean of the column. */
  function Deviations(s: seq<real>): (d: seq<real>)
    requires |s| > 0
    ensures |d| == |s|
  {
    seq(|s|, i requires 0 <= i < |s| => s[i] - Mean(s))
  }

  lemma {:induction false} SumAppend(a: seq<real>, b: seq<real>)
    ensures Sum(a + b) == Sum(a) + Sum(b)
  {
    if |a| == 0 {
      assert a + b == b;
    } else {
      assert (a + b)[1..] == a[1..] + b;
      SumAppend(a[1..], b);
    }
  }

  lemma {:induction false} ProductAppend(a: seq<real>, b: seq<real>)
    ensures Product(a + b) == Product(a) * Product(b)
  {
    if |a| == 0 {
      assert a + b == b;
    } else {
      assert (a + b)[1..] == a[1..] + b;
      ProductAppend(a[1..], b);
      assert Product(a + b) == a[0] * (Product(a[1..]) * Product(b));
    }
  }

  /** A constant column of length n sums to n·c. */
  lemma {:induction false} SumAllEqual(s: seq<real>, c: real)
    requires AllEqual(s, c)
    ensures Sum(s) == |s| as real * c
  {
    if |s| > 0 {
      SumAllEqual(s[1..], c);
    }
  }

  /** The mean of a constant column is that constant. */
  lemma MeanAllEqual(s: seq<real>, c: real)
    requires |s| > 0 && AllEqual(s, c)
    ensures Mean(s) == c
  {
    SumAllEqual(s, c);
  }

  lemma {:induction false} SumBounds(s: seq<real>, lo: real, hi: real)
    requires forall i :: 0 <= i < |s| ==> lo <= s[i] <= hi
    ensures |s| as real * lo <= Sum(s) <= |s| as real * hi
  {
    if |s| > 0 {
      SumBounds(s[1..], lo, hi);
    }
  }

  /** The mean lies between any lower and upper bound of the column. */
  lemma MeanBounds(s: seq<real>, lo: real, hi: real)
    requires |s| > 0
    requires forall i :: 0 <= i < |s| ==> lo <= s[i] <= hi
    ensures lo <= Mean(s) <= hi
  {
    SumBounds(s, lo, hi);
    var n := |s| as real;
    assert Mean(s) * n == Sum(s);
  }

  lemma {:induction false} ProductAllEqual(s: seq<real>, c: real)
    requires AllEqual(s, c)
    ensures Product(s) == Power(c, |s|)
  {
    if |s| > 0 {
      ProductAllEqual(s[1..], c);
    }
  }

  lemma HprAppend(a: seq<real>, b: seq<real>)
    ensures Hpr(a + b) == Hpr(a) + Hpr(b)
  {
  }

  /** Compounding two consecutive stretches multiplies their growth factors. */
  lemma CompoundAppend(a: seq<real>, b: seq<real>)
    ensures 1.0 + Compound(a + b) == (1.0 + Compound(a)) * (1.0 + Compound(b))
  {
    HprAppend(a, b);
    ProductAppend(Hpr(a), Hpr(b));
  }

  /** A single period compounds to its own return. */
  lemma CompoundSingle(x: real)
    ensures Compound([x]) == x
  {
    assert Hpr([x]) == [x + 1.0];
    assert [x + 1.0][1..] == [];
    assert Product([x + 1.0]) == (x + 1.0) * Product([]);
  }

  /** Periods that all return zero compound to zero. */
  lemma CompoundAllZero(r: seq<real>)
    requires AllEqual(r, 0.0)
    ensures Compound(r) == 0.0
  {
    assert AllEqual(Hpr(r), 1.0);
    ProductAllEqual(Hpr(r), 1.0);
    PowerOne(|r|);
  }

  lemma {:induction false} PowerOne(n: nat)
    ensures Power(1.0, n) == 1.0
  {
    if n > 0 {
      PowerOne(n - 1);
    }
  }

  /** The pointwise sum u + v. */
  function Add(u: seq<real>, v: seq<real>): (w: seq<real>)
    requires |u| == |v|
    ensures |w| == |u|
  {
    seq(|u|, i requires 0 <= i < |u| => u[i] + v[i])
  }

  /** The column a·u. */
  function Scale(a: real, u: seq<real>): (w: seq<real>)
    ensures |w| == |u|
  {
    seq(|u|, i requires 0 <= i < |u| => a * u[i])
  }

  lemma LinSplit(a: real, u: seq<real>, b: real, v: seq<real>)
    requires |u| == |v|
    ensures Lin(a, u, b, v) == Add(Scale(a, u), Scale(b, v))
  {
  }

  lemma AddTail(u: seq<real>, v: seq<real>)
    requires |u| == |v| > 0
    ensures Add(u, v)[1..] == Add(u[1..], v[1..])
  {
    var l, r := Add(u, v)[1..], Add(u[1..], v[1..]);
    forall i | 0 <= i < |l|
      ensures l[i] == r[i]
    {
      assert l[i] == u[i + 1] + v[i + 1];
    }
  }

  lemma ScaleTail(a: real, u: seq<real>)
    requires |u| > 0
    ensures Scale(a, u)[1..] == Scale(a, u[1..])
  {
    var l, r := Scale(a, u)[1..], Scale(a, u[1..]);
    forall i | 0 <= i < |l|
      ensures l[i] == r[i]
    {
      assert l[i] == a * u[i + 1];
    }
  }

  lemma {:induction false} SumAdd(u: seq<real>, v: seq<real>)
    requires |u| == |v|
    ensures Sum(Add(u, v)) == Sum(u) + Sum(v)
  {
    if |u| > 0 {
      AddTail(u, v);
      SumAdd(u[1..], v[1..]);
    } else {
      assert Add(u, v) == [];
    }
  }

  lemma {:induction false} SumScale(a: real, u: seq<real>)
    ensures Sum(Scale(a, u)) == a * Sum(u)
  {
    if |u| > 0 {
      ScaleTail(a, u);
      SumScale(a, u[1..]);
      Distribute(a, u[0], Sum(u[1..]));
    } else {
      assert Scale(a, u) == [];
    }
  }

  lemma Distribute(a: real, x: real, y: real)
    ensures a * x + a * y == a * (x + y)
  {
  }

  /** The sum is linear. */
  lemma SumLin(a: real, u: seq<real>, b: real, v: seq<real>)
    requires |u| == |v|
    ensures Sum(Lin(a, u, b, v)) == a * Sum(u) + b * Sum(v)
  {
    LinSplit(a, u, b, v);
    SumAdd(Scale(a, u), Scale(b, v));
    SumScale(a, u);
    SumScale(b, v);
  }

  lemma {:induction false} DotAdd(u: seq<real>, v: seq<real>, w: seq<real>)
    requires |u| == |v| == |w|
    ensures Dot(u, Add(v, w)) == Dot(u, v) + Dot(u, w)
  {
    if |u| > 0 {
      AddTail(v, w);
      DotAdd(u[1..], v[1..], w[1..]);
      Distribute(u[0], v[0], w[0]);
    } else {
      assert Add(v, w) == [];
    }
  }

  lemma {:induction false} DotScale(u: seq<real>, a: real, v: seq<real>)
    requires |u| == |v|
    ensures Dot(u, Scale(a, v)) == a * Dot(u, v)
  {
    if |u| > 0 {
      ScaleTail(a, v);
      DotScale(u[1..], a, v[1..]);
      ScaledProduct(a, u[0], v[0], Dot(u[1..], v[1..]));
    } else {
      assert Scale(a, v) == [];
    }
  }

  lemma ScaledProduct(a: real, x: real, y: real, s: real)
    ensures x * (a * y) + a * s == a * (x * y + s)
  {
  }

  /** The inner product is linear in its second argument. */
  lemma DotLin(u: seq<real>, a: real, v: seq<real>, b: real, w: seq<real>)
    requires |u| == |v| == |w|
    ensures Dot(u, Lin(a, v, b, w)) == a * Dot(u, v) + b * Dot(u, w)
  {
    LinSplit(a, v, b, w);
    DotAdd(u, Scale(a, v), Scale(b, w));
    DotScale(u, a, v);
    DotScale(u, b, w);
  }

  lemma {:induction false} DotComm(u: seq<real>, v: seq<real>)
    requires |u| == |v|
    ensures Dot(u, v) == Dot(v, u)
  {
    if |u| > 0 {
      DotComm(u[1..], v[1..]);
    }
  }

  lemma {:induction false} DotOnes(u: seq<real>)
    ensures Dot(u, Ones(|u|)) == Sum(u)
  {
    if |u| > 0 {
      assert Ones(|u|)[1..] == Ones(|u| - 1);
      DotOnes(u[1..]);
    }
  }

  lemma SquareNonneg(x: real)
    ensures x * x >= 0.0
  {
    if x < 0.0 {
      assert x * x == (-x) * (-x);
    }
  }

  lemma MulPositive(a: real, b: real)
    requires a > 0.0 && b > 0.0
    ensures a * b > 0.0
  {
  }

  /** A nonzero square plus a nonnegative remainder is positive (the factors are
      passed separately, which keeps the solver on linear ground). */
  lemma SquarePlusPositive(x: real, y: real, r: real)
    requires x == y && x != 0.0 && r >= 0.0
    ensures x * y + r > 0.0
  {
    if x > 0.0 {
      MulPositive(x, y);
    } else {
      MulPositive(-x, -y);
      assert (-x) * (-y) == x * y;
    }
  }

  /** A sum of squares is never negative. */
  lemma {:induction false} DotSelfNonneg(u: seq<real>)
    ensures Dot(u, u) >= 0.0
  {
    if |u| > 0 {
      DotSelfNonneg(u[1..]);
      SquareNonneg(u[0]);
    }
  }

  /** A sum of squares with a nonzero term is positive. */
  lemma {:induction false} DotSelfPositive(u: seq<real>, i: nat)
    requires i < |u| && u[i] != 0.0
    ensures Dot(u, u) > 0.0
  {
    var t := u[1..];
    assert Dot(u, u) == u[0] * u[0] + Dot(t, t);
    if i == 0 {
      DotSelfNonneg(t);
      SquarePlusPositive(u[0], u[0], Dot(t, t));
    } else {
      SquareNonneg(u[0]);
      assert t[i - 1] == u[i];
      DotSelfPositive(t, i - 1);
    }
  }

  /** The inner product with a zero column is zero. */
  lemma {:induction false} DotZeroLeft(u: seq<real>, v: seq<real>)
    requires |u| == |v| && AllEqual(u, 0.0)
    ensures Dot(u, v) == 0.0
  {
    if |u| > 0 {
      DotZeroLeft(u[1..], v[1..]);
    }
  }

  /** Deviations from the mean are the column shifted by minus the mean. */
  lemma DeviationsAsLin(s: seq<real>)
    requires |s| > 0
    ensures Deviations(s) == Lin(1.0, s, -Mean(s), Ones(|s|))
  {
  }

  /** Deviations from the mean sum to zero. */
  lemma DeviationsSumZero(s: seq<real>)
    requires |s| > 0
    ensures Sum(Deviations(s)) == 0.0
  {
    DeviationsAsLin(s);
    SumLin(1.0, s, -Mean(s), Ones(|s|));
    SumAllEqual(Ones(|s|), 1.0);
  }

  /** A constant column has no deviation from its mean. */
  lemma DeviationsAllEqual(s: seq<real>, c: real)
    requires |s| > 0 && AllEqual(s, c)
    ensures AllEqual(Deviations(s), 0.0)
  {
    MeanAllEqual(s, c);
  }
}

=== FILE: sml.dfy ===
/**
 The Security Market Line data set: the table of (ticker, beta, expected return)
 rows closed by the risk-free row, and the line drawn between the table's lowest
 and highest beta.
 */
module Sml {
  import opened Capm

  datatype SmlRow = SmlRow(ticker: string, beta: real, expected: real)

  /** A point of the chart: beta on the horizontal axis, return on the vertical one. */
  datatype Point = Point(beta: real, ret: real)

  /** The drawn SML: from `low` to `high`. */
  datatype Segment = Segment(low: Point, high: Point)

  const RiskFreeTicker: string := "Risk-Free"

  /** The row at beta 0 that earns the risk-free rate. */
  function RiskFreeRow(rf: real): SmlRow
  {
    SmlRow(RiskFreeTicker, 0.0, rf)
  }

  /** `pd.concat([sml_df, risk_free_row], ignore_index=True)`. */
  function SmlTable(rows: seq<SmlRow>, rf: real): (t: seq<SmlRow>)
    ensures |t| == |rows| + 1
    ensures t[..|rows|] == rows
    ensures t[|rows|] == SmlRow("Risk-Free", 0.0, rf)
  {
    rows + [RiskFreeRow(rf)]
  }

  /** `sml_df['Beta'].min()`. */
  function MinBeta(t: seq<SmlRow>): (b: real)
    requires |t| > 0
    ensures forall i :: 0 <= i < |t| ==> b <= t[i].beta
    ensures exists i :: 0 <= i < |t| && t[i].beta == b
  {
    if |t| == 1 then t[0].beta
    else
      var m := MinBeta(t[1..]);
      assert forall i :: 1 <= i < |t| ==> t[1..][i - 1] == t[i];
      if t[0].beta <= m then t[0].beta else m
  }

  /** `sml_df['Beta'].max()`. */
  function MaxBeta(t: seq<SmlRow>): (b: real)
    requires |t| > 0
    ensures forall i :: 0 <= i < |t| ==> t[i].beta <= b
    ensures exists i :: 0 <= i < |t| && t[i].beta == b
  {
    if |t| == 1 then t[0].beta
    else
      var m := MaxBeta(t[1..]);
      assert forall i :: 1 <= i < |t| ==> t[1..][i - 1] == t[i];
      if t[0].beta >= m then t[0].beta else m
  }

  /** The point's return is what CAPM expects at its beta. */
  predicate OnLine(p: Point, rf: real, marketMean: real)
  {
    p.ret == ExpectedReturn(p.beta, rf, marketMean)
  }

  /** The point lies on the drawn part of the line: on the CAPM line, between the segment's betas. */
  predicate OnSegment(p: Point, s: Segment, rf: real, marketMean: real)
  {
    s.low.beta <= p.beta <= s.high.beta && OnLine(p, rf, marketMean)
  }

  function RowPoint(r: SmlRow): Point
  {
    Point(r.beta, r.expected)
  }

  /** `sml_x = [min_beta, max_beta]`, `sml_y = rf + sml_x·(mean_market − rf)`. */
  function SmlLine(t: seq<SmlRow>, rf: real, marketMean: real): (s: Segment)
    requires |t| > 0
    ensures s.low.beta <= s.high.beta
    ensures OnLine(s.low, rf, marketMean) && OnLine(s.high, rf, marketMean)
    ensures forall i :: 0 <= i < |t| ==> s.low.beta <= t[i].beta <= s.high.beta
    ensures (exists i :: 0 <= i < |t| && t[i].beta == s.low.beta) && (exists i :: 0 <= i < |t| && t[i].beta == s.high.beta)
  {
    var lo, hi := MinBeta(t), MaxBeta(t);
    Segment(Point(lo, ExpectedReturn(lo, rf, marketMean)), Point(hi, ExpectedReturn(hi, rf, marketMean)))
  }

  /** Because the table always holds the zero-beta row, the line's beta range contains 0. */
  lemma BetaRangeHasZero(rows: seq<SmlRow>, rf: real)
    ensures MinBeta(SmlTable(rows, rf)) <= 0.0 <= MaxBeta(SmlTable(rows, rf))
  {
    var t := SmlTable(rows, rf);
    assert t[|rows|].beta == 0.0;
  }

  /** Every CAPM point whose beta lies between the table's lowest and highest beta is on the drawn segment. */
  lemma CapmPointOnSegment(p: Point, t: seq<SmlRow>, rf: real, marketMean: real)
    requires |t| > 0 && OnLine(p, rf, marketMean)
    requires MinBeta(t) <= p.beta <= MaxBeta(t)
    ensures OnSegment(p, SmlLine(t, rf, marketMean), rf, marketMean)
  {
  }

  /** When every ticker row is priced by CAPM, every row of the table, the risk-free
      row included, lies on the drawn SML, and so does the point (0, rf). */
  lemma TableOnSegment(rows: seq<SmlRow>, rf: real, marketMean: real)
    requires forall i :: 0 <= i < |rows| ==> OnLine(RowPoint(rows[i]), rf, marketMean)
    ensures var t := SmlTable(rows, rf);
      (forall i :: 0 <= i < |t| ==> OnSegment(RowPoint(t[i]), SmlLine(t, rf, marketMean), rf, marketMean))
      && OnSegment(Point(0.0, rf), SmlLine(t, rf, marketMean), rf, marketMean)
  {
    var t := SmlTable(rows, rf);
    forall i | 0 <= i < |t|
      ensures OnSegment(RowPoint(t[i]), SmlLine(t, rf, marketMean), rf, marketMean)
    {
      if i < |rows| {
        assert t[i] == rows[i];
      }
      CapmPointOnSegment(RowPoint(t[i]), t, rf, marketMean);
    }
    assert RowPoint(t[|rows|]) == Point(0.0, rf);
  }
}

=== FILE: stats.dfy ===
/**
 Descriptive risk statistics over one column of annual returns: holding-period
 returns, arithmetic mean, sample variance, and the relational specifications
 of the geometric mean, the standard deviation and the coefficient of variation
 (real roots are not computable here, so those three are stated as relations).
 */
module Stats {
  import opened Options
  import opened Series

  /** pandas `var`: the sample variance with an n−1 denominator, undefined below two observations. */
  function SampleVariance(s: seq<real>): (v: Option<real>)
    ensures v.Some? <==> |s| >= 2
    ensures v.Some? ==> v.value >= 0.0
  {
    if |s| < 2 then None
    else
      var d := Deviations(s);
      DotSelfNonneg(d);
      NonnegQuotient(Dot(d, d), (|s| - 1) as real);
      Some(Dot(d, d) / (|s| - 1) as real)
  }

  lemma NonnegQuotient(a: real, b: real)
    requires a >= 0.0 && b > 0.0
    ensures a / b >= 0.0
  {
  }

  lemma PositiveQuotient(a: real, b: real)
    requires a > 0.0 && b > 0.0
    ensures a / b > 0.0
  {
  }

  /** The sample variance is zero exactly when the column is constant. */
  lemma VarianceZeroIffConstant(s: seq<real>)
    requires |s| >= 2
    ensures SampleVariance(s) == Some(0.0) <==> AllEqual(s, s[0])
  {
    var d := Deviations(s);
    if AllEqual(s, s[0]) {
      DeviationsAllEqual(s, s[0]);
      DotZeroLeft(d, d);
    } else {
      var i :| 0 <= i < |s| && s[i] != s[0];
      var j := if s[i] != Mean(s) then i else 0;
      assert d[j] != 0.0;
      DotSelfPositive(d, j);
      PositiveQuotient(Dot(d, d), (|s| - 1) as real);
    }
  }

  /** The per-column figures the risk-metrics panel shows (standard deviation and
      coefficient of variation are derived from `variance` by the relations below). */
  datatype Profile = Profile(hpr: seq<real>, mean: real, growth: real, variance: Option<real>)

  function RiskProfile(r: seq<real>): (p: Profile)
    requires |r| > 0
    ensures |p.hpr| == |r| && forall i :: 0 <= i < |r| ==> p.hpr[i] - r[i] == 1.0
    ensures p.growth == 1.0 + Compound(r)
    ensures p.variance.Some? <==> |r| >= 2
    ensures p.variance.Some? ==> p.variance.value >= 0.0
    ensures AllEqual(r, r[0]) ==> p.mean == r[0]
    ensures |r| >= 2 ==> (p.variance == Some(0.0) <==> AllEqual(r, r[0]))
    ensures p.mean == Mean(r) && p.variance == SampleVariance(r)
  {
    MeanAllEqualIf(r);
    VarianceZeroIfLongEnough(r);
    Profile(Hpr(r), Mean(r), Product(Hpr(r)), SampleVariance(r))
  }

  lemma VarianceZeroIfLongEnough(r: seq<real>)
    ensures |r| >= 2 ==> (SampleVariance(r) == Some(0.0) <==> AllEqual(r, r[0]))
  {
    if |r| >= 2 {
      VarianceZeroIffConstant(r);
    }
  }

  lemma MeanAllEqualIf(r: seq<real>)
    requires |r| > 0
    ensures AllEqual(r, r[0]) ==> Mean(r) == r[0]
  {
    if AllEqual(r, r[0]) {
      MeanAllEqual(r, r[0]);
    }
  }

  /** `g` is a geometric mean of the returns `r`: (1 + g)^n equals the product of the holding-period returns. */
  predicate IsGeometricMean(r: seq<real>, g: real)
  {
    |r| > 0 && 1.0 + g >= 0.0 && Power(1.0 + g, |r|) == Product(Hpr(r))
  }

  /** A constant return is its own geometric mean. */
  lemma GeometricMeanOfConstant(r: seq<real>, c: real)
    requires |r| > 0 && AllEqual(r, c) && c >= -1.0
    ensures IsGeometricMean(r, c)
  {
    assert AllEqual(Hpr(r), 1.0 + c);
    ProductAllEqual(Hpr(r), 1.0 + c);
  }

  lemma MulNonneg(a: real, b: real)
    requires a >= 0.0 && b >= 0.0
    ensures a * b >= 0.0
  {
  }

  lemma MulStrict(a: real, b: real, c: real, d: real)
    requires 0.0 <= a < b && 0.0 <= c <= d && d > 0.0
    ensures a * c < b * d
  {
    MulNonneg(a, d - c);
    MulPositive(b - a, d);
    assert b * d - a * c == (b - a) * d + a * (d - c);
  }

  lemma {:induction false} PowerStrict(a: real, b: real, n: nat)
    requires 0.0 <= a < b && n >= 1
    ensures Power(a, n) < Power(b, n)
  {
    if n == 1 {
      PowerFirst(a);
      PowerFirst(b);
    } else {
      PowerStrict(a, b, n - 1);
      PowerNonneg(a, n - 1);
      MulStrict(a, b, Power(a, n - 1), Power(b, n - 1));
    }
  }

  lemma PowerFirst(x: real)
    ensures Power(x, 1) == x
  {
    assert Power(x, 1) == x * Power(x, 0);
  }

  lemma {:induction false} PowerNonneg(a: real, n: nat)
    requires a >= 0.0
    ensures Power(a, n) >= 0.0
  {
    if n > 0 {
      PowerNonneg(a, n - 1);
      MulNonneg(a, Power(a, n - 1));
    }
  }

  /** The relation determines the geometric mean: at most one value satisfies it. */
  lemma GeometricMeanUnique(r: seq<real>, g: real, h: real)
    requires IsGeometricMean(r, g) && IsGeometricMean(r, h)
    ensures g == h
  {
    if g < h {
      PowerStrict(1.0 + g, 1.0 + h, |r|);
    } else if h < g {
      PowerStrict(1.0 + h, 1.0 + g, |r|);
    }
  }

  /** pandas `std` against `var`: both undefined, or a nonnegative square root. */
  predicate IsStdDev(variance: Option<real>, sd: Option<real>)
  {
    (variance.None? && sd.None?)
    || (variance.Some? && sd.Some? && sd.value >= 0.0 && sd.value * sd.value == variance.value)
  }

  /** A ratio that may be undefined: the coefficient of variation for a zero mean. */
  datatype Ratio = Undefined | Defined(value: real)

  /** std / mean, with the division by a zero mean (infinite or NaN in floating point) marked Undefined. */
  function CoefficientOfVariation(sd: Option<real>, mean: real): (cv: Ratio)
    ensures cv.Defined? <==> sd.Some? && mean != 0.0
    ensures cv.Defined? ==> cv.value * mean == sd.value
  {
    if sd.None? || mean == 0.0 then Undefined else Defined(sd.value / mean)
  }

  lemma SquareZero(x: real)
    requires x * x == 0.0
    ensures x == 0.0
  {
    if x != 0.0 {
      SquarePlusPositive(x, x, 0.0);
    }
  }

  /** A constant column of at least two returns has coefficient of variation 0,
      or Undefined when the constant is 0 (the constant-price case). */
  lemma CvOfConstantSeries(r: seq<real>, c: real, sd: Option<real>)
    requires |r| >= 2 && AllEqual(r, c)
    requires IsStdDev(SampleVariance(r), sd)
    ensures CoefficientOfVariation(sd, Mean(r)) == if c == 0.0 then Undefined else Defined(0.0)
  {
    MeanAllEqual(r, c);
    VarianceZeroIffConstant(r);
    SquareZero(sd.value);
  }
}

=== FILE: tickers.dfy ===
/**
 The custom-ticker field: the text is split on commas, every field is trimmed of
 white space and upper-cased, blank fields are dropped, and the tokens are appended
 after the tickers chosen in the multiselect.
 */
module Tickers {

  /** White space as `str.isspace` (and so `str.strip`) sees it. */
  predicate IsSpace(c: char)
  {
    c == ' ' || ('\t' <= c <= '\r') || ('\U{1c}' <= c <= '\U{1f}')
    || c == '\U{85}' || c == '\U{a0}' || c == '\U{1680}' || ('\U{2000}' <= c <= '\U{200a}')
    || c == '\U{2028}' || c == '\U{2029}' || c == '\U{202f}' || c == '\U{205f}' || c == '\U{3000}'
  }

  predicate IsLower(c: char)
  {
    'a' <= c <= 'z'
  }

  /** The number of white-space characters at the front of s. */
  function LeadingSpaces(s: string): (a: nat)
    ensures a <= |s|
    ensures forall i :: 0 <= i < a ==> IsSpace(s[i])
    ensures a < |s| ==> !IsSpace(s[a])
  {
    if |s| > 0 && IsSpace(s[0]) then 1 + LeadingSpaces(s[1..]) else 0
  }

  /** The number of white-space characters at the back of s. */
  function TrailingSpaces(s: string): (b: nat)
    ensures b <= |s|
    ensures forall i :: |s| - b <= i < |s| ==> IsSpace(s[i])
    ensures b < |s| ==> !IsSpace(s[|s| - b - 1])
  {
    if |s| > 0 && IsSpace(s[|s| - 1]) then 1 + TrailingSpaces(s[..|s| - 1]) else 0
  }

  /** `str.strip()`: the part of s between its leading and its trailing white space. */
  function Strip(s: string): (t: string)
    ensures exists a, b :: (0 <= a <= b <= |s| && t == s[a..b]
      && (forall i :: 0 <= i < a ==> IsSpace(s[i])) && (forall i :: b <= i < |s| ==> IsSpace(s[i])))
    ensures |t| > 0 ==> !IsSpace(t[0]) && !IsSpace(t[|t| - 1])
  {
    var a := LeadingSpaces(s);
    var b := TrailingSpaces(s[a..]);
    s[a..|s| - b]
  }

  /** Stripping is blank exactly for all-white-space text. */
  lemma StripBlank(s: string)
    ensures Strip(s) == "" <==> forall i :: 0 <= i < |s| ==> IsSpace(s[i])
  {
    if Strip(s) == "" {
      var a, b :| 0 <= a <= b <= |s| && Strip(s) == s[a..b]
        && (forall i :: 0 <= i < a ==> IsSpace(s[i])) && (forall i :: b <= i < |s| ==> IsSpace(s[i]));
      assert a == b;
    } else {
      assert !IsSpace(Strip(s)[0]);
    }
  }

  /** Text without white space at either end is left as it is. */
  lemma StripClean(s: string)
    requires |s| > 0 ==> !IsSpace(s[0]) && !IsSpace(s[|s| - 1])
    ensures Strip(s) == s
  {
    assert LeadingSpaces(s) == 0;
    assert TrailingSpaces(s) == 0;
    assert s[0..|s|] == s;
  }

  /** Stripping twice is stripping once. */
  lemma StripIdempotent(s: string)
    ensures Strip(Strip(s)) == Strip(s)
  {
    StripClean(Strip(s));
  }

  /** ASCII upper-casing of one character. */
  function UpperChar(c: char): (u: char)
    ensures !IsLower(u)
    ensures IsLower(c) ==> u as int == c as int - 32
    ensures !IsLower(c) ==> u == c
  {
    if IsLower(c) then (c as int - 32) as char else c
  }

  /** `str.upper()` on ASCII letters. */
  function Upper(s: string): (u: string)
    ensures |u| == |s|
    ensures forall i :: 0 <= i < |s| ==> u[i] == UpperChar(s[i])
    ensures forall i :: 0 <= i < |u| ==> !IsLower(u[i])
    ensures (forall i :: 0 <= i < |s| ==> !IsLower(s[i])) ==> u == s
  {
    seq(|s|, i requires 0 <= i < |s| => UpperChar(s[i]))
  }

  /** Upper-casing keeps white space where it is and is idempotent. */
  lemma UpperKeepsSpaces(s: string)
    ensures forall i :: 0 <= i < |s| ==> (IsSpace(Upper(s)[i]) <==> IsSpace(s[i]))
    ensures Upper(Upper(s)) == Upper(s)
  {
  }

  /** `s.split(sep)`: the fields between separators; always at least one. */
  function Split(s: string, sep: char): (fields: seq<string>)
    ensures |fields| >= 1
    ensures forall i :: 0 <= i < |fields| ==> sep !in fields[i]
  {
    if |s| == 0 then [""]
    else if s[0] == sep then [""] + Split(s[1..], sep)
    else
      var r := Split(s[1..], sep);
      [[s[0]] + r[0]] + r[1..]
  }

  /** `sep.join(fields)`. */
  function Join(fields: seq<string>, sep: char): string
    requires |fields| >= 1
  {
    if |fields| == 1 then fields[0] else fields[0] + [sep] + Join(fields[1..], sep)
  }

  /** Joining the fields of a split gives back the text. */
  lemma {:induction false} JoinSplit(s: string, sep: char)
    ensures Join(Split(s, sep), sep) == s
  {
    if |s| > 0 {
      JoinSplit(s[1..], sep);
      var r := Split(s[1..], sep);
      if s[0] == sep {
        assert ([""] + r)[1..] == r;
      } else {
        var fs := [[s[0]] + r[0]] + r[1..];
        if |r| == 1 {
          assert Join(fs, sep) == [s[0]] + r[0];
        } else {
          assert fs[1..] == r[1..];
          assert Join(r, sep) == r[0] + [sep] + Join(r[1..], sep);
        }
      }
    }
  }

  /** Splitting a join of separator-free fields gives back the fields. */
  lemma {:induction false} SplitJoin(fields: seq<string>, sep: char)
    requires |fields| >= 1 && forall i :: 0 <= i < |fields| ==> sep !in fields[i]
    ensures Split(Join(fields, sep), sep) == fields
  {
    if |fields| == 1 {
      SplitFree(fields[0], sep);
    } else {
      SplitJoin(fields[1..], sep);
      SplitPrefix(fields[0], Join(fields[1..], sep), sep);
      assert [fields[0]] + fields[1..] == fields;
    }
  }

  /** Text without a separator is one field. */
  lemma {:induction false} SplitFree(s: string, sep: char)
    requires sep !in s
    ensures Split(s, sep) == [s]
  {
    if |s| > 0 {
      SplitFree(s[1..], sep);
      assert [s[0]] + s[1..] == s;
    }
  }

  /** A separator-free prefix followed by a separator becomes the first field. */
  lemma {:induction false} SplitPrefix(f: string, rest: string, sep: char)
    requires sep !in f
    ensures Split(f + [sep] + rest, sep) == [f] + Split(rest, sep)
  {
    if |f| == 0 {
      assert f + [sep] + rest == [sep] + rest;
      assert ([sep] + rest)[1..] == rest;
    } else {
      SplitPrefix(f[1..], rest, sep);
      assert (f + [sep] + rest)[1..] == f[1..] + [sep] + rest;
      assert [f[0]] + f[1..] == f;
    }
  }

  /** The token a field yields: trimmed, then upper-cased. */
  function Token(field: string): string
  {
    Upper(Strip(field))
  }

  predicate Blank(field: string)
  {
    Strip(field) == ""
  }

  /** `[t.strip().upper() for t in fields if t.strip()]`. */
  function Tokens(fields: seq<string>): (ts: seq<string>)
    ensures |ts| <= |fields|
  {
    if |fields| == 0 then []
    else (if Blank(fields[0]) then [] else [Token(fields[0])]) + Tokens(fields[1..])
  }

  /** The indices of the non-blank fields from `from` on, in order. */
  function NonBlank(fields: seq<string>, from: nat): (ks: seq<nat>)
    requires from <= |fields|
    ensures forall k :: 0 <= k < |ks| ==> from <= ks[k] < |fields|
    ensures forall k, l :: 0 <= k < l < |ks| ==> ks[k] < ks[l]
    ensures forall i :: from <= i < |fields| ==> (i in ks <==> !Blank(fields[i]))
    decreases |fields| - from
  {
    if from == |fields| then []
    else (if Blank(fields[from]) then [] else [from]) + NonBlank(fields, from + 1)
  }

  /** The tokens of the fields at the indices ks. */
  function Pick(fields: seq<string>, ks: seq<nat>): (ts: seq<string>)
    requires forall k :: 0 <= k < |ks| ==> ks[k] < |fields|
    ensures |ts| == |ks|
    ensures forall k :: 0 <= k < |ks| ==> ts[k] == Token(fields[ks[k]])
  {
    seq(|ks|, k requires 0 <= k < |ks| => Token(fields[ks[k]]))
  }

  lemma PickCons(fields: seq<string>, i: nat, ks: seq<nat>)
    requires i < |fields| && forall k :: 0 <= k < |ks| ==> ks[k] < |fields|
    ensures Pick(fields, [i] + ks) == [Token(fields[i])] + Pick(fields, ks)
  {
    var l, r := Pick(fields, [i] + ks), [Token(fields[i])] + Pick(fields, ks);
    forall k | 0 <= k < |l|
      ensures l[k] == r[k]
    {
      if k > 0 {
        assert ([i] + ks)[k] == ks[k - 1];
      }
    }
  }

  /** One token per non-blank field, in the order of the fields. */
  lemma {:induction false} TokensOfNonBlank(fields: seq<string>, from: nat)
    requires from <= |fields|
    ensures Tokens(fields[from..]) == Pick(fields, NonBlank(fields, from))
    decreases |fields| - from
  {
    if from < |fields| {
      TokensOfNonBlank(fields, from + 1);
      assert fields[from..][1..] == fields[from + 1..];
      assert fields[from..][0] == fields[from];
      var rest := NonBlank(fields, from + 1);
      if !Blank(fields[from]) {
        PickCons(fields, from, rest);
      }
    } else {
      assert fields[from..] == [];
    }
  }

  /** Every token is non-empty, has no white space at either end and no lower-case ASCII letter. */
  lemma TokensClean(fields: seq<string>)
    ensures forall k :: 0 <= k < |Tokens(fields)| ==> TokenClean(Tokens(fields)[k])
  {
    var ks := NonBlank(fields, 0);
    TokensOfNonBlank(fields, 0);
    assert fields[0..] == fields;
    forall k | 0 <= k < |ks|
      ensures TokenClean(Token(fields[ks[k]]))
    {
      assert ks[k] in ks;
      var s := Strip(fields[ks[k]]);
      UpperKeepsSpaces(s);
    }
  }

  /** What a clean ticker token looks like. */
  predicate TokenClean(t: string)
  {
    |t| > 0 && !IsSpace(t[0]) && !IsSpace(t[|t| - 1]) && forall i :: 0 <= i < |t| ==> !IsLower(t[i])
  }

  /** The tokens of the custom-ticker text. */
  function ParseCustom(input: string): (ts: seq<string>)
    ensures |ts| <= |Split(input, ',')|
    ensures forall k :: 0 <= k < |ts| ==> TokenClean(ts[k]) && ',' !in ts[k]
  {
    var fields := Split(input, ',');
    TokensClean(fields);
    TokensWithoutComma(fields);
    Tokens(fields)
  }

  /** Tokens of comma-free fields are comma-free. */
  lemma {:induction false} TokensWithoutComma(fields: seq<string>)
    requires forall i :: 0 <= i < |fields| ==> ',' !in fields[i]
    ensures forall k :: 0 <= k < |Tokens(fields)| ==> ',' !in Tokens(fields)[k]
    decreases |fields|
  {
    if |fields| > 0 {
      TokensWithoutComma(fields[1..]);
      TokenWithoutComma(fields[0]);
    }
  }

  /** Stripping and upper-casing never make a comma. */
  lemma TokenWithoutComma(f: string)
    requires ',' !in f
    ensures ',' !in Token(f)
  {
    var s := Strip(f);
    var a, b :| 0 <= a <= b <= |f| && s == f[a..b];
    assert forall i :: 0 <= i < |s| ==> s[i] == f[a + i];
    UpperWithoutComma(s);
  }

  lemma UpperWithoutComma(s: string)
    requires ',' !in s
    ensures ',' !in Upper(s)
  {
    assert forall i :: 0 <= i < |s| ==> Upper(s)[i] == UpperChar(s[i]) && s[i] != ',';
  }

  /** Lines 16–18: non-empty text appends its tokens after the multiselect choices;
      empty text changes nothing. */
  function AddCustomTickers(selected: seq<string>, input: string): (r: seq<string>)
    ensures |r| >= |selected| && r[..|selected|] == selected
    ensures input == "" ==> r == selected
  {
    if input != "" then selected + ParseCustom(input) else selected
  }

  /** What is appended is one token per non-blank comma-separated field, in order and
      without de-duplication. */
  lemma AddedTokens(selected: seq<string>, input: string)
    ensures var fields := Split(input, ',');
      AddCustomTickers(selected, input) == selected + Pick(fields, NonBlank(fields, 0))
  {
    var fields := Split(input, ',');
    if input == "" {
      EmptyInputNoTokens();
      assert selected + [] == selected;
    } else {
      TokensOfNonBlank(fields, 0);
      assert fields[0..] == fields;
    }
  }

  /** Empty text has the one blank field "" and so no token. */
  lemma EmptyInputNoTokens()
    ensures NonBlank(Split("", ','), 0) == [] && Pick(Split("", ','), []) == []
  {
    assert Split("", ',') == [""];
    assert Blank("");
  }

  /** Clean, comma-free tickers written comma-separated parse back to themselves. */
  lemma ParseJoined(ts: seq<string>)
    requires |ts| >= 1 && forall i :: 0 <= i < |ts| ==> TokenClean(ts[i]) && ',' !in ts[i]
    ensures ParseCustom(Join(ts, ',')) == ts
  {
    SplitJoin(ts, ',');
    TokensOfClean(ts);
  }

  lemma {:induction false} TokensOfClean(ts: seq<string>)
    requires forall i :: 0 <= i < |ts| ==> TokenClean(ts[i])
    ensures Tokens(ts) == ts
  {
    if |ts| > 0 {
      TokensOfClean(ts[1..]);
      StripClean(ts[0]);
      assert Upper(ts[0]) == ts[0];
      assert [ts[0]] + ts[1..] == ts;
    }
  }
}
